=== FILE: README.md ===
# 16AIO PCI driver — a Dafny model of its core

The driver in `kernel/16aio.c` binds General Standards 16AIO analog I/O
boards. Each board sits behind a PLX PCI 9080 bridge. The core modelled here
is what the probe routine (`device_init`) and the remove routine
(`device_exit`) do to the card and to the driver's table of adapters:

- **Register layouts.** The two packed structures the driver overlays on its
  mappings: `gsc_cfg_regs_t` (the board, BAR 2, 0x40 bytes) and
  `plx_cfg_regs_t` (the bridge, BAR 0, 0xB4 bytes). The model checks each
  offset written beside a member against the packed offset.
- **Register access.** Registers are little-endian bytes. Every field access
  is one bus transaction of the field's width and is recorded in an ordered
  trace. Bit 15 of board_ctrl is the one register with behaviour:
  - writing it requests a reset;
  - reads see it set for `resetLatency` reads and then clear.
- **Bring-up.**
  - `device_reset_board` writes 0x8000 to board_ctrl and polls until bit 15
    clears.
  - `device_disable_plx_interrupts` clears bit 11 of the bridge's int_ctrl by
    read-modify-write.
- **The DMA test block.** The source does these steps in order:
  - writes the markers 0xAA to out_buf_ctrl and 0x01 to dma0mode;
  - fills the first word of a 32-byte buffer with 0x22;
  - pulses the channel-0 clear-interrupt bit (dmacmd 0x08 then 0x00);
  - programs the channel-0 descriptor: mode 0x00020D43, PCI address = the
    buffer's bus address, local address 0x1C, byte count 4, pointer 0;
  - enables the channel (0x1), then starts it (0x3).
- **The adapter table.** It has four slots and a count. A probe takes a slot,
  a minor number and a `/dev/16aio.<n>` node, and creates the shared objects
  on the first probe. The shared objects are the proc entry, the
  character-device region and the device class. A removal gives the slot back
  and destroys the shared objects with the last adapter.

The model has these modules:

- `LittleEndian`: byte encoding.
- `Layout`: the structures.
- `RegisterFile`: a card's registers and its trace.
- `Bringup`: the reset and the interrupt masking.
- `Dma`: the write sequences, the decoded transfer and the sentinel buffer.
- `AdapterRegistry`: the table as written.
- `AdapterRegistryFixed`: the table with the bookkeeping corrected.
- `Driver`: the probe and remove routines composed from the modules above.
  They use the corrected table; "## Left out" says where that departs from
  the source.

Kernel services become inputs: the PCI device handle, the two mapped BARs,
the IRQ number, the allocator's buffer contents and the bus address the
mapping returns. Kernel object creation is recorded as `Event`s.

## Model

| member | source | states |
|---|---|---|
| LittleEndian.Encode | kernel/16aio.c:298-301 | the cpu_to_le encoding of a value has the field's byte width and decodes back to the value |
| LittleEndian.EncodeDecode | kernel/16aio.c:298-301 | decoding bytes with le_to_cpu and re-encoding gives back the same bytes, for 8-, 16- and 32-bit fields |
| Layout.AgreesFromMeansMatches | kernel/16aio.c:76-135 | walking a declaration checks its written offsets if and only if every written offset equals the packed offset |
| Layout.FieldsDisjoint | kernel/16aio.c:76-135 | in a packed structure a member ends at or before the start of every later member |
| Layout.FieldInside | kernel/16aio.c:76-135 | every member lies inside sizeof the structure |
| Layout.GscLayout | kernel/16aio.c:76-90 | every offset written in gsc_cfg_regs_t is the packed one; the structure is 0x40 bytes; board_ctrl is the 32-bit word at 0x00 and out_buf_ctrl the 32-bit word at 0x1C |
| Layout.PlxLayout | kernel/16aio.c:93-135 | every offset written in plx_cfg_regs_t is the packed one, and the structure is 0xB4 bytes |
| Layout.PlxRegisters | kernel/16aio.c:113-133 | int_ctrl is at 0x68; dma0mode, dma0pciaddr, dma0lcladdr, dma0bytecnt and dma0pnt are consecutive 32-bit words from 0x80; dmacmd is 16 bits at 0xA8; dmathreshold is at 0xB0 |
| RegisterFile.Write | kernel/16aio.c:284 | a store puts the value in the field, changes no other byte, appends one write transaction, and arms a reset exactly when it sets bit 15 of board_ctrl |
| RegisterFile.Read | kernel/16aio.c:288-290 | a load appends one read transaction; off board_ctrl it returns the field and changes nothing; on board_ctrl bit 15 reports whether a reset is pending, the other bits are the register's, and one read of the latency is used up |
| RegisterFile.WriteThenRead | kernel/16aio.c:349-351 | outside board_ctrl, reading a field back returns the value just written to it |
| RegisterFile.StoreSame | kernel/16aio.c:298-301 | writing back the value a field holds leaves the bytes unchanged |
| Bringup.ResetBoard | kernel/16aio.c:280-291 | the reset request comes first, followed by reads of board_ctrl that are busy exactly while the latency lasts; the routine returns ready if and only if the read budget exceeds the latency, after latency + 1 reads, with bit 15 of board_ctrl reading clear (the model's other bits read 0, see Left out); only board_ctrl changes |
| Bringup.ClearBit11 | kernel/16aio.c:300 | the result has bit 11 clear and every other bit of the input, and is left unchanged by a second clearing |
| Bringup.DisablePlxInterrupts | kernel/16aio.c:296-302 | one read of int_ctrl then one write of it; afterwards bit 11 is clear and every other bit of int_ctrl, and every other register, is unchanged |
| Bringup.DisableIdempotent | kernel/16aio.c:296-302 | masking interrupts twice leaves the registers as masking once |
| Dma.ApplyWrites | kernel/16aio.c:368-380 | a write sequence issues exactly its writes, in order, and arms no reset unless one of them requests it |
| Dma.ApplyWritesPeek | kernel/16aio.c:368-380 | after a write sequence a register holds the last value written to it, or its old value if no write touched it |
| Dma.LastWrittenIsLastHit | kernel/16aio.c:368-380 | the value a register ends with is that of the last write that hits it |
| Dma.ApplyWritesWithin | kernel/16aio.c:368-380 | writes confined to a byte window change nothing outside it |
| Dma.ProgramChannelZero | kernel/16aio.c:368-380 | the channel-0 program issues the clear pulse, the five descriptor writes, enable and start, in that order, and changes no byte outside dma0mode..dmacmd |
| Dma.ChannelZeroRegisters | kernel/16aio.c:372-380 | afterwards dma0mode = 0x00020D43, dma0pciaddr = low 32 bits of the bus address, dma0lcladdr = 0x1C, dma0bytecnt = 4, dma0pnt = 0 and dmacmd = 0x3 |
| Dma.ChannelZeroTransfer | kernel/16aio.c:372-376 | read as the PLX 9080 reads it, channel 0 describes one 32-bit, host-to-device, fixed-local-address copy of 4 bytes from the buffer to local address 0x1C |
| Dma.TransferTargetsOutBufCtrl | kernel/16aio.c:374-375 | the transfer's local address is out_buf_ctrl's offset, and its byte count is that register's size, one bus-width transfer |
| Dma.FillSentinel | kernel/16aio.c:363-364 | the first four bytes of the 32-byte buffer are 0x22, and the rest is what the allocator returned |
| Dma.SentinelWord | kernel/16aio.c:363-375 | the mapped bytes read as the word 0x22222222 for any allocator contents, and the programmed byte count equals the mapped length |
| Dma.WriteMarkers | kernel/16aio.c:349-350 | after the marker writes out_buf_ctrl holds 0xAA, while board_ctrl, int_ctrl and the reset state are unchanged |
| Dma.DmaTest | kernel/16aio.c:349-380 | the whole test block issues the marker writes and then the channel-0 program; before the bridge copies anything it leaves out_buf_ctrl at the CPU's marker 0xAA, channel 0 describing the sentinel transfer and started, and board_ctrl and int_ctrl as they were |
| Dma.BusMasterCopy | kernel/16aio.c:44-48 | the bridge's copy of a one-beat transfer, possible only when the host memory sits at the 32-bit PCI address channel 0 holds: host to device, the first byte-count bytes of host memory land at the local address; device to host, the local bytes land at the start of host memory; nothing else changes and the CPU trace is untouched |
| Dma.SentinelDelivered | kernel/16aio.c:44-48 | for a buffer mapped below 4 GiB, the bridge can carry out the transfer device_init starts from that buffer, and out_buf_ctrl then holds the sentinel word 0x22222222, for any allocator contents |
| AdapterRegistry.Probe | kernel/16aio.c:314-396 | as written: slot and node index are the count, the minor is count + 1, the count grows by one, no other slot changes, and the shared objects are created if and only if the count was 0 |
| AdapterRegistry.FindSlot | kernel/16aio.c:410-415 | returns the first slot below the count that holds the device, or reports that none does |
| AdapterRegistry.Remove | kernel/16aio.c:403-436 | as written: zeroes the first slot below the count holding the device, decrements the count, destroys its node, and destroys the shared objects if and only if the count reaches 0 |
| AdapterRegistry.ProbeThenRemove | kernel/16aio.c:314-436 | probing a new device and removing it restores the table; the events create and destroy the same node, and the shared objects only around a sole adapter |
| AdapterRegistry.RemoveStrandsLaterAdapter | kernel/16aio.c:410-427 | after probing A and B and removing A, B still occupies slot 1 but can no longer be found, and the next probe overwrites slot 1 and reuses minor 2 |
| AdapterRegistryFixed.Probe | kernel/16aio.c:314-396 | corrected: takes the first free slot k, gives minor k + 1 and node index k, keeps the table invariant, and creates the shared objects if and only if the table was empty |
| AdapterRegistryFixed.Remove | kernel/16aio.c:403-436 | corrected: finds the device in any slot, zeroes that slot, keeps the table invariant, and destroys the shared objects if and only if it was the last adapter |
| AdapterRegistryFixed.RoomMeansFree | kernel/16aio.c:325 | a table with fewer than four adapters has a free slot |
| AdapterRegistryFixed.ProbeThenRemove | kernel/16aio.c:314-436 | probing a device and removing it restores the table exactly |
| AdapterRegistryFixed.RemoveKeepsOthers | kernel/16aio.c:410-427 | removing one device leaves every other attached device in its slot and still removable |
| AdapterRegistryFixed.NoStranding | kernel/16aio.c:410-427 | in the sequence that strands an adapter as written, the survivor stays removable, and the next probe takes the vacated slot 0 with a different minor |
| AdapterRegistryFixed.ProbeAgrees | kernel/16aio.c:325-332 | while occupied slots are a prefix, the corrected probe is the as-written one |
| AdapterRegistryFixed.RemoveLastAgrees | kernel/16aio.c:410-427 | removing the most recently probed adapter is the same in both versions |
| AdapterRegistryFixed.FirstTwoProbes | kernel/16aio.c:314-396 | from an empty table, the first probe creates the shared objects and node 0 with minor 1, and the second creates node 1 with minor 2 |
| AdapterRegistryFixed.ReplayAppend | kernel/16aio.c:314-436 | replaying two event lists in a row is replaying their concatenation |
| AdapterRegistryFixed.SharedLifetime | kernel/16aio.c:314-436 | over any sequence of probes and removals the events replay in order: the shared objects are created only when absent and destroyed only when present, node events happen only while they exist, and at the end they exist if and only if some adapter does |
| Driver.BringUp | kernel/16aio.c:337-338 | the reset traffic, then, once ready, the int_ctrl read-modify-write; no register but board_ctrl and int_ctrl is written |
| Driver.DeviceInit | kernel/16aio.c:307-399 | described below the table |
| Driver.DeviceExit | kernel/16aio.c:403-437 | the device's slot is zeroed and nothing else in the table changes; its node is destroyed, and the shared objects with the last adapter; bit 11 of its int_ctrl is cleared again |

`Driver.DeviceInit` takes a budget of board_ctrl reads, and its contract
states this:

- If the board is still busy when the budget is spent, only the shared
  objects and the reset traffic have happened.
- Otherwise the bring-up traffic comes before every DMA register write.
- After that come the marker writes and then the channel-0 program.
- At the end:
  - the board is out of reset;
  - interrupts are masked;
  - channel 0 is started on the sentinel transfer, and out_buf_ctrl still
    holds the CPU's marker 0xAA;
  - if the buffer is mapped below 4 GiB, then once the bridge carries out
    that transfer, out_buf_ctrl holds the sentinel word 0x22222222 from the
    buffer;
  - the table has gained the device with the corrected probe's slot, minor
    and events.

## Left out

- `kernel/16aio.mod.c` is build metadata.
- These are diagnostic output with no effect on the card's state: the /proc
  file (`device_proc_open`, `device_proc_show`), the register dumps
  (`device_print_gsc_regs`, `device_print_plx_regs`) and every printk. The
  reads the dumps issue are not in the trace: they happen once the reset is
  over, when board_ctrl reads are plain loads.
- The following are foreign calls whose results are inputs or events, or
  whose effect is outside the card:
  - `pci_request_regions`, `pci_enable_device`, `pci_set_master`,
    `pci_set_dma_mask`;
  - `pci_ioremap_bar` (its mappings are the handles `bar0` and `bar2`);
  - `pci_map_single` (its bus address is the input `busAddr`);
  - `kmalloc` (its contents are the input `heap`);
  - `free_irq`, `pci_release_regions`, `pci_disable_device`.

  The source logs a failure of `pci_request_regions`, `pci_enable_device` or
  `pci_set_dma_mask` and carries on, so those do not change the control
  flow. `free_irq` is called in `device_exit` for an IRQ that `device_init`
  never requests.
- The model assumes both mapped blocks answer reads and writes from the
  start of `device_init`. The source resets the board and masks the
  bridge's interrupts (lines 284-301) before it calls `pci_enable_device`
  (line 340). A board that never answers, or never clears bit 15, is
  covered only as far as the read budget `fuel` goes.
- The model assumes `pci_ioremap_bar`, `kmalloc` and `pci_map_single`
  succeed. The source checks none of their results: a NULL mapping is
  dereferenced at line 284, and a NULL buffer is passed to memset at line
  364.
- Dma.DmaTest and Driver.DeviceInit state out_buf_ctrl == 0xAA for the
  registers as the CPU's writes leave them. The bridge's copy happens after
  the start command and overwrites it with the sentinel, as lines 44-48
  describe. That copy is the separate step Dma.BusMasterCopy, and
  Dma.SentinelDelivered and DeviceInit state the value after it. When the
  copy happens relative to later CPU accesses is not modelled.
- Dma.BusMasterCopy carries out single-beat transfers only: the byte count
  is one local bus width. That is the transfer device_init programs. Burst
  transfers, and local addresses outside the board's register block, are
  not modelled.
- Dma.BusMasterCopy also assumes two things about addresses:
  - Local address n is byte n of the board's register block (BAR 2), so
    local address 0x1C is out_buf_ctrl. How the bridge decodes local
    addresses is not modelled.
  - The host memory is a parameter, at the bus address it is given for. The
    copy reaches it only if that address is below 4 GiB and is the address
    in dma0pciaddr. The source writes only the low 32 bits of the mapping
    (line 373). It asks for a 32-bit DMA mask (line 356), but on failure
    only logs (line 357).
- `cond_resched` and all timing are left out. How long a reset takes is the
  parameter `resetLatency`.
- Bringup.ResetBoard: the model does not show what the board's reset does to
  its other registers. The source resets the board to put it in a known
  state (line 278). In the model every board register but board_ctrl keeps
  its value, so the frame "only board_ctrl changes" comes from the model's
  register file, not from the board.
- Bringup.ResetBoard: the source polls without bound. The model stops after
  `fuel` reads and reports whether the board became ready, so a board that
  never finishes its reset is modelled as `ready == false`, not as a hang.
- Driver.DeviceInit: when the read budget runs out, the model returns the table unchanged. It does not show the slot fields that lines 331-335 write before the reset. The source is still polling in that state and never returns from it.
- Concurrency is left out. The model assumes that probes and removals of all
  of the driver's devices run one at a time. The PCI core serialises them
  only per device, and the source has no lock on `adapters` or
  `adapter_count`.
- Driver.DeviceInit uses the corrected table, AdapterRegistryFixed.Probe,
  not the source's. They agree while the occupied slots are a prefix of
  the table (AdapterRegistryFixed.ProbeAgrees). They differ after probe A,
  probe B, remove A: DeviceInit then gives a new device slot 0, minor 1 and
  node 16aio.0. `device_init` gives it slot 1, minor 2 and node 16aio.1
  (lines 325, 332, 394), overwriting B.
- Driver.DeviceExit uses the corrected table, AdapterRegistryFixed.Remove,
  not the source's. They agree when the most recently probed adapter is
  removed (AdapterRegistryFixed.RemoveLastAgrees). On the table left by
  probe A, probe B, remove A, DeviceExit(B) zeroes slot 1. `device_exit`
  searches only below `adapter_count`, finds nothing and dereferences NULL
  (lines 410-419, 298). The source's behaviour is
  AdapterRegistry.RemoveStrandsLaterAdapter.
- The global `dma_vaddr` is left out. It is overwritten by every probe and
  never unmapped or freed; the model does not track host memory beyond the
  one buffer.
- AdapterRegistry.Probe requires count < 4. The slot at index count may be
  occupied, and then it is overwritten.
- AdapterRegistryFixed.Probe requires count < 4 and a device not yet in the
  table, so it always finds a free slot.
- The source indexes `adapters[adapter_count]` with no bound check and has
  no capacity error.
- AdapterRegistry.Remove and AdapterRegistryFixed.Remove require the device
  to be in the table. The source dereferences NULL otherwise and has no
  not-found error.
- Dma.ChannelZeroTransfer decodes only the DMAMODE bits that describe the
  transfer: bits 1:0, the local bus width, and bit 11, the local address
  held constant. Of DMADPR it decodes only bit 3, the direction. The other
  mode bits of 0x00020D43 are not interpreted:
  - wait states (bits 5:2), which are 0;
  - ready input (bit 6);
  - local burst enable (bit 8);
  - done interrupt (bit 10);
  - interrupt routing (bit 17).
- Bringup.ResetBoard, Driver.BringUp and Driver.DeviceInit state board_ctrl
  == 0 once ready. The source promises only that bit 15 reads clear. The
  model keeps the other board_ctrl bits as the value written (0x8000) and
  clears bit 15 when the reset ends, which gives 0.
- Ordering of the writes: the marker write of 0x01 to dma0mode (line 350)
  comes before the clear pulse. So the pulse precedes every descriptor write
  of the programming block (lines 372-376), but not every write to dma0mode.
  The trace states this order exactly.

## Findings

| source | as written | input that shows it | evidently intended | confidence | as-written member | corrected member |
|---|---|---|---|---|---|---|
| kernel/16aio.c:325-332, 410-427 | a probe always takes slot `adapter_count`, and a removal searches only slots 0 .. adapter_count-1 and zeroes the match without moving the others | probe A (slot 0), probe B (slot 1), remove A: the count is 1 while B sits in slot 1, so removing B finds nothing and dereferences NULL, and the next probe overwrites slot 1 and reuses minor 2 while B's node still exists | probe into a free slot and search every slot on removal, so that any adapter can be removed in any order | high; not executed | AdapterRegistry.RemoveStrandsLaterAdapter | AdapterRegistryFixed.NoStranding |

=== FILE: bringup.dfy ===
/**
  Board bring-up, as the probe routine performs it before any DMA work:
  device_reset_board requests a board reset and polls board_ctrl until the
  reset-busy bit clears, then device_disable_plx_interrupts clears the
  interrupt-enable bit in the bridge's interrupt control register with a
  read-modify-write.

  The source polls without bound (yielding with cond_resched between reads);
  here the number of reads is capped by `fuel`, and the contract says exactly
  how many reads a board with a given reset latency takes.
 */
module Bringup {

  import opened LittleEndian
  import opened Layout
  import opened RegisterFile

  /** Bit 11 of the bridge's int_ctrl register, the bit the driver clears (1 << 11). */
  const INT_ENABLE_BIT: bv32 := 0x0000_0800

  /** A 32-bit read of board_ctrl. */
  predicate IsBoardCtrlRead(a: Access) {
    a.kind == Rd && a.region == Board && a.offset == BOARD_CTRL && a.width == W32
  }

  /** `v'` is `v` with bit 11 clear and every other bit unchanged. */
  predicate ClearedBit11(v: bv32, v': bv32) {
    v' & INT_ENABLE_BIT == 0 && v' | INT_ENABLE_BIT == v | INT_ENABLE_BIT
  }

  /** le32_to_cpu(val) & ~(1 << 11): the C mask is the int -2049, which the
      conversion to u32 turns into 0xFFFFF7FF. */
  function ClearBit11(v: bv32): (v': bv32)
    ensures ClearedBit11(v, v')
    ensures ClearedBit11(v', v')
  {
    v & !INT_ENABLE_BIT
  }

  /** After a reset request the stored board_ctrl is the request bit alone,
      and a read can only turn that into the bit alone or nothing. */
  lemma BoardCtrlAfterRead(v: bv32)
    requires SameOtherBits(v, RESET_BIT)
    ensures Busy(v) ==> v == RESET_BIT
    ensures !Busy(v) ==> v == 0
  {
  }

  /**
    device_reset_board: write 0x00008000 to board_ctrl, then read board_ctrl
    until bit 15 reads clear, at most `fuel` times. `ready` says the clear bit
    was seen. A board whose reset takes `resetLatency` reads answers busy to
    exactly that many reads, so the loop performs `resetLatency + 1` reads.
   */
  method ResetBoard(c0: Card, fuel: nat) returns (c: Card, polls: nat, ready: bool)
    requires Valid(c0)
    ensures Valid(c)
    ensures ready <==> fuel > c0.resetLatency
    ensures polls == if ready then c0.resetLatency + 1 else fuel
    ensures |c.trace| == |c0.trace| + 1 + polls
    ensures c.trace[..|c0.trace|] == c0.trace
    ensures c.trace[|c0.trace|] == Access(Wr, Board, BOARD_CTRL, W32, RESET_BIT)
    ensures forall k :: |c0.trace| < k < |c.trace| ==>
              IsBoardCtrlRead(c.trace[k]) && (Busy(c.trace[k].value) <==> k <= |c0.trace| + c0.resetLatency)
    ensures ready ==> c.resetPending == 0 && Peek(c, Board, BOARD_CTRL, W32) == 0
    ensures OnlyChanged(c0, c, Board, BOARD_CTRL, 4)
    ensures c.resetLatency == c0.resetLatency
  {
    c := Write(c0, Board, BOARD_CTRL, W32, RESET_BIT);
    polls := 0;
    var busy := true;
    while busy && polls < fuel
      invariant Valid(c) && polls <= fuel
      invariant !busy ==> polls == c0.resetLatency + 1
      invariant PollTrace(c0, c, polls) && PollState(c0, c, polls, busy)
      decreases fuel - polls
    {
      var (c', v) := Read(c, Board, BOARD_CTRL, W32);
      PollTraceStep(c0, c, polls);
      PollStateStep(c0, c, polls);
      c := c';
      polls := polls + 1;
      busy := Busy(v);
    }
    ready := !busy;
  }

  /** The trace after the reset request and `polls` reads of board_ctrl. */
  ghost predicate PollTrace(c0: Card, c: Card, polls: nat) {
    && |c.trace| == |c0.trace| + 1 + polls
    && c.trace[..|c0.trace|] == c0.trace
    && c.trace[|c0.trace|] == Access(Wr, Board, BOARD_CTRL, W32, RESET_BIT)
    && forall k :: |c0.trace| < k < |c.trace| ==>
         IsBoardCtrlRead(c.trace[k]) && (Busy(c.trace[k].value) <==> k <= |c0.trace| + c0.resetLatency)
  }

  /** The board after the reset request and `polls` reads, `busy` being
      what the last read (or the request) showed. */
  ghost predicate PollState(c0: Card, c: Card, polls: nat, busy: bool)
    requires Valid(c0) && Valid(c)
  {
    && (busy <==> polls <= c0.resetLatency)
    && c.resetLatency == c0.resetLatency
    && c.resetPending == (if busy then c0.resetLatency - polls else 0)
    && Peek(c, Board, BOARD_CTRL, W32) == (if busy then RESET_BIT else 0)
    && OnlyChanged(c0, c, Board, BOARD_CTRL, 4)
  }

  /** One more read while busy extends the trace by a read that is busy
      exactly while the latency lasts. */
  lemma PollTraceStep(c0: Card, c: Card, polls: nat)
    requires Valid(c0) && Valid(c) && PollTrace(c0, c, polls) && PollState(c0, c, polls, true)
    ensures PollTrace(c0, Read(c, Board, BOARD_CTRL, W32).0, polls + 1)
  {
    var (c', v) := Read(c, Board, BOARD_CTRL, W32);
    assert c'.trace == c.trace + [Access(Rd, Board, BOARD_CTRL, W32, v)];
    assert c'.trace[..|c0.trace|] == c.trace[..|c0.trace|];
  }

  /** One more read while busy counts the latency down by one. */
  lemma PollStateStep(c0: Card, c: Card, polls: nat)
    requires Valid(c0) && Valid(c) && PollState(c0, c, polls, true)
    ensures var (c', v) := Read(c, Board, BOARD_CTRL, W32);
      PollState(c0, c', polls + 1, Busy(v))
  {
    var (c', v) := Read(c, Board, BOARD_CTRL, W32);
    BoardCtrlAfterRead(v);
  }

  /**
    device_disable_plx_interrupts: one 32-bit read of int_ctrl, then one
    32-bit write of the same value with bit 11 cleared. No other register and
    no other bit of int_ctrl changes.
   */
  function DisablePlxInterrupts(c: Card): (c': Card)
    requires Valid(c)
    ensures Valid(c')
    ensures ClearedBit11(Peek(c, Bridge, INT_CTRL, W32), Peek(c', Bridge, INT_CTRL, W32))
    ensures OnlyChanged(c, c', Bridge, INT_CTRL, 4)
    ensures c'.resetLatency == c.resetLatency && c'.resetPending == c.resetPending
    ensures c'.trace == c.trace + [Access(Rd, Bridge, INT_CTRL, W32, Peek(c, Bridge, INT_CTRL, W32)),
                                   Access(Wr, Bridge, INT_CTRL, W32, Peek(c', Bridge, INT_CTRL, W32))]
  {
    var (c1, v) := Read(c, Bridge, INT_CTRL, W32);
    Write(c1, Bridge, INT_CTRL, W32, ClearBit11(v))
  }

  /** Disabling twice leaves the registers as disabling once: the second
      read-modify-write writes back the value it read. */
  lemma DisableIdempotent(c: Card)
    requires Valid(c)
    ensures SameRegisters(DisablePlxInterrupts(DisablePlxInterrupts(c)), DisablePlxInterrupts(c))
  {
    var c1 := DisablePlxInterrupts(c);
    var v1 := Peek(c1, Bridge, INT_CTRL, W32);
    assert ClearBit11(v1) == v1 by {
      ClearedBit11Fixed(Peek(c, Bridge, INT_CTRL, W32), v1);
    }
    StoreSame(c1.bridge, INT_CTRL, W32);
  }

  /** A value with bit 11 already clear is its own ClearBit11. */
  lemma ClearedBit11Fixed(v: bv32, v': bv32)
    requires ClearedBit11(v, v')
    ensures ClearBit11(v') == v'
  {
  }

}

=== FILE: dma.dfy ===
/**
  The one-shot DMA transfer device_init sets up on the bridge's channel 0:
  a host buffer holding a sentinel word, the channel-0 descriptor registers,
  and the command register writes that clear, enable and start the channel.

  Register writes are applied in order to a `Card`; the contracts say what
  the descriptor registers hold afterwards and in which order the bus saw
  the writes. The copy the bridge then performs as bus master is a separate
  step, `BusMasterCopy`, taken after the start command.
 */
module Dma {

  import opened LittleEndian
  import opened Layout
  import opened RegisterFile

  /** One register write of a fixed programming sequence. */
  datatype RegWrite = RegWrite(region: Region, offset: nat, width: Width, value: bv32)

  predicate WellFormed(x: RegWrite) {
    InBlock(x.region, x.offset, x.width) && Fits(x.width, x.value)
  }

  predicate AllWellFormed(ws: seq<RegWrite>) {
    forall i :: 0 <= i < |ws| ==> WellFormed(ws[i])
  }

  /** The bus transaction a write issues. */
  function AsAccess(x: RegWrite): Access {
    Access(Wr, x.region, x.offset, x.width, x.value)
  }

  function AsAccesses(ws: seq<RegWrite>): (r: seq<Access>)
    ensures |r| == |ws|
    ensures forall i :: 0 <= i < |ws| ==> r[i] == AsAccess(ws[i])
    decreases |ws|
  {
    if |ws| == 0 then [] else [AsAccess(ws[0])] + AsAccesses(ws[1..])
  }

  /** The write requests a board reset. */
  predicate RequestsReset(x: RegWrite) {
    IsBoardCtrl(x.region, x.offset, x.width) && Busy(x.value)
  }

  /** Issues the writes `ws` in order, one bus transaction each. */
  function ApplyWrites(c: Card, ws: seq<RegWrite>): (c': Card)
    requires Valid(c) && AllWellFormed(ws)
    ensures Valid(c')
    ensures c'.trace == c.trace + AsAccesses(ws)
    ensures c'.resetLatency == c.resetLatency
    ensures (forall i :: 0 <= i < |ws| ==> !RequestsReset(ws[i])) ==> c'.resetPending == c.resetPending
    decreases |ws|
  {
    if |ws| == 0 then c
    else
      var x := ws[0];
      var c1 := Write(c, x.region, x.offset, x.width, x.value);
      TraceAppend(c.trace, AsAccess(x), AsAccesses(ws[1..]));
      ApplyWrites(c1, ws[1..])
  }

  lemma TraceAppend(t: seq<Access>, a: Access, rest: seq<Access>)
    ensures (t + [a]) + rest == t + ([a] + rest)
  {
  }

  /** The write targets exactly the field of width `w` at `off` in region `r`. */
  predicate Hits(x: RegWrite, r: Region, off: nat, w: Width) {
    x.region == r && x.offset == off && x.width == w
  }

  /** The write shares no byte with that field. */
  predicate Misses(x: RegWrite, r: Region, off: nat, w: Width) {
    x.region != r || x.offset + Bytes(x.width) <= off || off + Bytes(w) <= x.offset
  }

  /** Every write either targets the field exactly or leaves it alone. */
  predicate Aligned(ws: seq<RegWrite>, r: Region, off: nat, w: Width) {
    forall i :: 0 <= i < |ws| ==> Hits(ws[i], r, off, w) || Misses(ws[i], r, off, w)
  }

  /** The value of the last write to the field in `ws`, or `init` if none. */
  function LastWritten(ws: seq<RegWrite>, r: Region, off: nat, w: Width, init: bv32): bv32
    decreases |ws|
  {
    if |ws| == 0 then init
    else LastWritten(ws[1..], r, off, w, if Hits(ws[0], r, off, w) then ws[0].value else init)
  }

  /** With no write to the field, its value is the initial one. */
  lemma {:induction false} LastWrittenNoHit(ws: seq<RegWrite>, r: Region, off: nat, w: Width, init: bv32)
    requires forall k :: 0 <= k < |ws| ==> !Hits(ws[k], r, off, w)
    ensures LastWritten(ws, r, off, w, init) == init
    decreases |ws|
  {
    if |ws| > 0 {
      assert forall k :: 0 <= k < |ws| - 1 ==> ws[1..][k] == ws[k + 1];
      LastWrittenNoHit(ws[1..], r, off, w, init);
    }
  }

  /** The value is that of the last write that hits the field. */
  lemma {:induction false} LastWrittenIsLastHit(ws: seq<RegWrite>, r: Region, off: nat, w: Width, init: bv32, j: nat)
    requires j < |ws| && Hits(ws[j], r, off, w)
    requires forall k :: j < k < |ws| ==> !Hits(ws[k], r, off, w)
    ensures LastWritten(ws, r, off, w, init) == ws[j].value
    decreases |ws|
  {
    var next := if Hits(ws[0], r, off, w) then ws[0].value else init;
    assert forall k :: 0 <= k < |ws| - 1 ==> ws[1..][k] == ws[k + 1];
    if j == 0 {
      LastWrittenNoHit(ws[1..], r, off, w, next);
    } else {
      LastWrittenIsLastHit(ws[1..], r, off, w, next, j - 1);
    }
  }

  /** After a sequence of writes, a field holds the last value written to it,
      or its old value if no write touched it. */
  lemma {:induction false} ApplyWritesPeek(c: Card, ws: seq<RegWrite>, r: Region, off: nat, w: Width)
    requires Valid(c) && AllWellFormed(ws) && InBlock(r, off, w) && Aligned(ws, r, off, w)
    ensures Peek(ApplyWrites(c, ws), r, off, w) == LastWritten(ws, r, off, w, Peek(c, r, off, w))
    decreases |ws|
  {
    if |ws| > 0 {
      var x := ws[0];
      var c1 := Write(c, x.region, x.offset, x.width, x.value);
      if !Hits(x, r, off, w) {
        PeekUnchanged(c, c1, x.region, x.offset, Bytes(x.width), r, off, w);
      }
      assert Aligned(ws[1..], r, off, w) by {
        forall i | 0 <= i < |ws| - 1
          ensures Hits(ws[1..][i], r, off, w) || Misses(ws[1..][i], r, off, w)
        {
          assert ws[1..][i] == ws[i + 1];
        }
      }
      ApplyWritesPeek(c1, ws[1..], r, off, w);
    }
  }

  /** Every write lands inside bytes [lo, lo + n) of region `r`. */
  predicate Within(ws: seq<RegWrite>, r: Region, lo: nat, n: nat) {
    forall i :: 0 <= i < |ws| ==> ws[i].region == r && lo <= ws[i].offset && ws[i].offset + Bytes(ws[i].width) <= lo + n
  }

  /** Writes confined to a window change no byte outside it. */
  lemma {:induction false} ApplyWritesWithin(c: Card, ws: seq<RegWrite>, r: Region, lo: nat, n: nat)
    requires Valid(c) && AllWellFormed(ws) && Within(ws, r, lo, n)
    ensures OnlyChanged(c, ApplyWrites(c, ws), r, lo, n)
    decreases |ws|
  {
    if |ws| > 0 {
      var x := ws[0];
      var c1 := Write(c, x.region, x.offset, x.width, x.value);
      assert Within(ws[1..], r, lo, n) by {
        forall i | 0 <= i < |ws| - 1
          ensures ws[1..][i].region == r && lo <= ws[1..][i].offset && ws[1..][i].offset + Bytes(ws[1..][i].width) <= lo + n
        {
          assert ws[1..][i] == ws[i + 1];
        }
      }
      ApplyWritesWithin(c1, ws[1..], r, lo, n);
    }
  }

  // ---------------------------------------------------------------------
  // The sequence device_init issues.

  /** The command register value that clears channel 0's interrupt (bit 3). */
  const CMD_CLEAR_INTR: bv32 := 0x08
  /** Channel 0 enable (bit 0). */
  const CMD_ENABLE: bv32 := 0x01
  /** Channel 0 enable and start (bits 0 and 1). */
  const CMD_START: bv32 := 0x03
  /** dma0mode: 32-bit local bus, local address held constant, among others. */
  const MODE_ONE_SHOT: bv32 := 0x0002_0D43

  /** The address dma0pciaddr receives: cpu_to_le32 of the dma_addr_t keeps its low 32 bits. */
  function Low32(busAddr: nat): bv32 {
    (busAddr % 0x1_0000_0000) as bv32
  }

  /** The CPU writes that mark out_buf_ctrl and dma0mode with known values
      before the transfer is set up. */
  const MarkerWrites: seq<RegWrite> := [
    RegWrite(Board, OUT_BUF_CTRL, W32, 0xAA),
    RegWrite(Bridge, DMA0MODE, W32, 0x01)
  ]

  /** Clear pulse, descriptor, enable, start. */
  function DescriptorProgram(busAddr: nat): seq<RegWrite> {
    [ RegWrite(Bridge, DMACMD, W16, CMD_CLEAR_INTR),
      RegWrite(Bridge, DMACMD, W16, 0x00),
      RegWrite(Bridge, DMA0MODE, W32, MODE_ONE_SHOT),
      RegWrite(Bridge, DMA0PCIADDR, W32, Low32(busAddr)),
      RegWrite(Bridge, DMA0LCLADDR, W32, 0x1C),
      RegWrite(Bridge, DMA0BYTECNT, W32, 0x4),
      RegWrite(Bridge, DMA0PNT, W32, 0x0),
      RegWrite(Bridge, DMACMD, W16, CMD_ENABLE),
      RegWrite(Bridge, DMACMD, W16, CMD_START) ]
  }


  lemma DescriptorProgramWellFormed(busAddr: nat)
    ensures AllWellFormed(DescriptorProgram(busAddr))
    ensures Within(DescriptorProgram(busAddr), Bridge, DMA0MODE, DMACMD + 2 - DMA0MODE)
    ensures forall i :: 0 <= i < 9 ==> !RequestsReset(DescriptorProgram(busAddr)[i])
  {
  }

  /** The descriptor sequence on the bridge, as device_init issues it once
      the sentinel buffer is mapped at `busAddr`. */
  function ProgramChannelZero(c: Card, busAddr: nat): (c': Card)
    requires Valid(c)
    ensures Valid(c')
    ensures c'.trace == c.trace + AsAccesses(DescriptorProgram(busAddr))
    ensures OnlyChanged(c, c', Bridge, DMA0MODE, DMACMD + 2 - DMA0MODE)
    ensures c'.resetLatency == c.resetLatency && c'.resetPending == c.resetPending
  {
    DescriptorProgramWellFormed(busAddr);
    ApplyWritesWithin(c, DescriptorProgram(busAddr), Bridge, DMA0MODE, DMACMD + 2 - DMA0MODE);
    ApplyWrites(c, DescriptorProgram(busAddr))
  }

  /** A register the sequence writes holds its last write afterwards. */
  lemma ProgramLeaves(c: Card, busAddr: nat, off: nat, w: Width, j: nat)
    requires Valid(c) && InBlock(Bridge, off, w)
    requires Aligned(DescriptorProgram(busAddr), Bridge, off, w)
    requires j < 9 && Hits(DescriptorProgram(busAddr)[j], Bridge, off, w)
    requires forall k :: j < k < 9 ==> !Hits(DescriptorProgram(busAddr)[k], Bridge, off, w)
    ensures Peek(ProgramChannelZero(c, busAddr), Bridge, off, w) == DescriptorProgram(busAddr)[j].value
  {
    var ws := DescriptorProgram(busAddr);
    DescriptorProgramWellFormed(busAddr);
    ApplyWritesPeek(c, ws, Bridge, off, w);
    LastWrittenIsLastHit(ws, Bridge, off, w, Peek(c, Bridge, off, w), j);
  }

  lemma ModeProgrammed(c: Card, busAddr: nat)
    requires Valid(c)
    ensures Peek(ProgramChannelZero(c, busAddr), Bridge, DMA0MODE, W32) == MODE_ONE_SHOT
  {
    ProgramLeaves(c, busAddr, DMA0MODE, W32, 2);
  }

  lemma PciAddressProgrammed(c: Card, busAddr: nat)
    requires Valid(c)
    ensures Peek(ProgramChannelZero(c, busAddr), Bridge, DMA0PCIADDR, W32) == Low32(busAddr)
  {
    ProgramLeaves(c, busAddr, DMA0PCIADDR, W32, 3);
  }

  lemma LocalAddressProgrammed(c: Card, busAddr: nat)
    requires Valid(c)
    ensures Peek(ProgramChannelZero(c, busAddr), Bridge, DMA0LCLADDR, W32) == OUT_BUF_CTRL as bv32
  {
    ProgramLeaves(c, busAddr, DMA0LCLADDR, W32, 4);
  }

  lemma ByteCountProgrammed(c: Card, busAddr: nat)
    requires Valid(c)
    ensures Peek(ProgramChannelZero(c, busAddr), Bridge, DMA0BYTECNT, W32) == 4
  {
    ProgramLeaves(c, busAddr, DMA0BYTECNT, W32, 5);
  }

  lemma PointerProgrammed(c: Card, busAddr: nat)
    requires Valid(c)
    ensures Peek(ProgramChannelZero(c, busAddr), Bridge, DMA0PNT, W32) == 0
  {
    ProgramLeaves(c, busAddr, DMA0PNT, W32, 6);
  }

  lemma CommandStarted(c: Card, busAddr: nat)
    requires Valid(c)
    ensures Peek(ProgramChannelZero(c, busAddr), Bridge, DMACMD, W16) == CMD_START
  {
    ProgramLeaves(c, busAddr, DMACMD, W16, 8);
  }

  /** After the sequence, each channel-0 register holds the value device_init
      gave it, and the command register was left at enable-and-start. */
  lemma ChannelZeroRegisters(c: Card, busAddr: nat)
    requires Valid(c)
    ensures Peek(ProgramChannelZero(c, busAddr), Bridge, DMA0MODE, W32) == MODE_ONE_SHOT
    ensures Peek(ProgramChannelZero(c, busAddr), Bridge, DMA0PCIADDR, W32) == Low32(busAddr)
    ensures Peek(ProgramChannelZero(c, busAddr), Bridge, DMA0LCLADDR, W32) == OUT_BUF_CTRL as bv32
    ensures Peek(ProgramChannelZero(c, busAddr), Bridge, DMA0BYTECNT, W32) == 4
    ensures Peek(ProgramChannelZero(c, busAddr), Bridge, DMA0PNT, W32) == 0
    ensures Peek(ProgramChannelZero(c, busAddr), Bridge, DMACMD, W16) == CMD_START
  {
    ModeProgrammed(c, busAddr);
    PciAddressProgrammed(c, busAddr);
    LocalAddressProgrammed(c, busAddr);
    ByteCountProgrammed(c, busAddr);
    PointerProgrammed(c, busAddr);
    CommandStarted(c, busAddr);
  }

  // ---------------------------------------------------------------------
  // What the programmed registers describe, read as the PLX 9080 bridge
  // reads them: DMAMODE bits 1:0 give the local bus width, bit 11 holds the
  // local address constant; DMADPR bit 3 set means local-to-PCI.

  datatype Direction = HostToDevice | DeviceToHost

  /** The transfer channel 0 is set up to perform. */
  datatype Transfer = Transfer(
    busWidth: nat,
    holdsLocalAddress: bool,
    direction: Direction,
    source: bv32,
    destination: nat,
    byteCount: nat)

  function LocalBusWidth(mode: bv32): (bits: nat)
    ensures bits == 8 || bits == 16 || bits == 32
  {
    var code := mode & 0x3;
    if code == 0 then 8 else if code == 1 then 16 else 32
  }

  function HoldsLocalAddress(mode: bv32): bool {
    mode & 0x800 != 0
  }

  function DirectionOf(pointer: bv32): Direction {
    if pointer & 0x8 != 0 then DeviceToHost else HostToDevice
  }

  /** The transfer the channel-0 registers of `c` describe. */
  function ChannelZero(c: Card): Transfer
    requires Valid(c)
  {
    var mode := Peek(c, Bridge, DMA0MODE, W32);
    Transfer(
      LocalBusWidth(mode),
      HoldsLocalAddress(mode),
      DirectionOf(Peek(c, Bridge, DMA0PNT, W32)),
      Peek(c, Bridge, DMA0PCIADDR, W32),
      Peek(c, Bridge, DMA0LCLADDR, W32) as nat,
      Peek(c, Bridge, DMA0BYTECNT, W32) as nat)
  }

  lemma ModeBits()
    ensures LocalBusWidth(MODE_ONE_SHOT) == 32 && HoldsLocalAddress(MODE_ONE_SHOT)
    ensures DirectionOf(0) == HostToDevice
  {
  }

  /** Registers holding device_init's values describe one 32-bit
      host-to-device copy of four bytes from `pciAddress` to local address
      0x1C, held fixed. */
  lemma DecodeProgrammed(c: Card, pciAddress: bv32)
    requires Valid(c)
    requires Peek(c, Bridge, DMA0MODE, W32) == MODE_ONE_SHOT
    requires Peek(c, Bridge, DMA0PCIADDR, W32) == pciAddress
    requires Peek(c, Bridge, DMA0LCLADDR, W32) == OUT_BUF_CTRL as bv32
    requires Peek(c, Bridge, DMA0BYTECNT, W32) == 4
    requires Peek(c, Bridge, DMA0PNT, W32) == 0
    ensures ChannelZero(c) == Transfer(32, true, HostToDevice, pciAddress, OUT_BUF_CTRL, 4)
  {
    ModeBits();
  }

  /** So the channel-0 program sets up that transfer from the buffer's bus
      address. */
  lemma ChannelZeroTransfer(c: Card, busAddr: nat)
    requires Valid(c)
    ensures ChannelZero(ProgramChannelZero(c, busAddr))
         == Transfer(32, true, HostToDevice, Low32(busAddr), OUT_BUF_CTRL, 4)
  {
    ChannelZeroRegisters(c, busAddr);
    DecodeProgrammed(ProgramChannelZero(c, busAddr), Low32(busAddr));
  }

  /** That local address and length are exactly the board's out_buf_ctrl
      register, and four bytes are one transfer at the configured width. */
  lemma TransferTargetsOutBufCtrl(c: Card, busAddr: nat)
    requires Valid(c)
    ensures var t := ChannelZero(ProgramChannelZero(c, busAddr));
      && FieldAt(GscFields, 7, "out_buf_ctrl", W32, t.destination)
      && t.byteCount == Size(GscFields[7])
      && t.byteCount * 8 == t.busWidth
  {
    ChannelZeroTransfer(c, busAddr);
    GscLayout();
  }

  // ---------------------------------------------------------------------
  // The host buffer.

  /** The byte memset writes into the first word of the buffer. */
  const SENTINEL: byte := 0x22
  /** kmalloc's request size. */
  const BUFFER_SIZE: nat := 32
  /** The length mapped for the device. */
  const MAPPED_LENGTH: nat := 4

  /** The buffer after memset of its first four bytes; `heap` is whatever
      the allocator returned. */
  function FillSentinel(heap: seq<byte>): (buf: seq<byte>)
    requires |heap| == BUFFER_SIZE
    ensures |buf| == BUFFER_SIZE
    ensures forall k :: 0 <= k < MAPPED_LENGTH ==> buf[k] == SENTINEL
    ensures buf[MAPPED_LENGTH..] == heap[MAPPED_LENGTH..]
  {
    [SENTINEL, SENTINEL, SENTINEL, SENTINEL] + heap[MAPPED_LENGTH..]
  }

  /** Read as a little-endian word, the mapped part of the buffer is the
      sentinel 0x22222222 whatever the allocator returned, and the transfer
      copies exactly the mapped length. */
  lemma SentinelWord(heap: seq<byte>, c: Card, busAddr: nat)
    requires |heap| == BUFFER_SIZE && Valid(c)
    ensures var buf := FillSentinel(heap);
      && ChannelZero(ProgramChannelZero(c, busAddr)).byteCount == MAPPED_LENGTH
      && Decode(W32, buf[..MAPPED_LENGTH]) == 0x2222_2222
  {
    var buf := FillSentinel(heap);
    assert buf[..MAPPED_LENGTH] == [0x22, 0x22, 0x22, 0x22];
    ByteCountProgrammed(c, busAddr);
  }

  // ---------------------------------------------------------------------
  // The whole test block of device_init.

  lemma MarkerWritesShape()
    ensures AllWellFormed(MarkerWrites)
    ensures forall i :: 0 <= i < |MarkerWrites| ==> !RequestsReset(MarkerWrites[i])
    ensures Aligned(MarkerWrites, Board, BOARD_CTRL, W32)
    ensures Aligned(MarkerWrites, Bridge, INT_CTRL, W32)
    ensures Aligned(MarkerWrites, Board, OUT_BUF_CTRL, W32)
    ensures forall i :: 0 <= i < |MarkerWrites| ==> !Hits(MarkerWrites[i], Board, BOARD_CTRL, W32)
    ensures forall i :: 0 <= i < |MarkerWrites| ==> !Hits(MarkerWrites[i], Bridge, INT_CTRL, W32)
    ensures Hits(MarkerWrites[0], Board, OUT_BUF_CTRL, W32) && !Hits(MarkerWrites[1], Board, OUT_BUF_CTRL, W32)
  {
  }

  /** The marker writes: out_buf_ctrl then holds 0xAA, and board_ctrl,
      int_ctrl and the reset state are untouched. */
  function WriteMarkers(c: Card): (c': Card)
    requires Valid(c)
    ensures Valid(c')
    ensures c'.trace == c.trace + AsAccesses(MarkerWrites)
    ensures Peek(c', Board, OUT_BUF_CTRL, W32) == 0xAA
    ensures Peek(c', Board, BOARD_CTRL, W32) == Peek(c, Board, BOARD_CTRL, W32)
    ensures Peek(c', Bridge, INT_CTRL, W32) == Peek(c, Bridge, INT_CTRL, W32)
    ensures c'.resetLatency == c.resetLatency && c'.resetPending == c.resetPending
  {
    MarkerWritesShape();
    ApplyWritesPeek(c, MarkerWrites, Board, BOARD_CTRL, W32);
    LastWrittenNoHit(MarkerWrites, Board, BOARD_CTRL, W32, Peek(c, Board, BOARD_CTRL, W32));
    ApplyWritesPeek(c, MarkerWrites, Bridge, INT_CTRL, W32);
    LastWrittenNoHit(MarkerWrites, Bridge, INT_CTRL, W32, Peek(c, Bridge, INT_CTRL, W32));
    ApplyWritesPeek(c, MarkerWrites, Board, OUT_BUF_CTRL, W32);
    LastWrittenIsLastHit(MarkerWrites, Board, OUT_BUF_CTRL, W32, Peek(c, Board, OUT_BUF_CTRL, W32), 0);
    ApplyWrites(c, MarkerWrites)
  }

  /** The marker writes, then the channel-0 program. Afterwards, before the
      bridge copies anything, out_buf_ctrl holds the CPU's marker 0xAA,
      channel 0 describes the sentinel transfer, and board_ctrl, int_ctrl
      and the reset state are as before. */
  function DmaTest(c: Card, busAddr: nat): (c': Card)
    requires Valid(c)
    ensures Valid(c')
    ensures c'.trace == c.trace + AsAccesses(MarkerWrites) + AsAccesses(DescriptorProgram(busAddr))
    ensures Peek(c', Board, OUT_BUF_CTRL, W32) == 0xAA
    ensures ChannelZero(c') == Transfer(32, true, HostToDevice, Low32(busAddr), OUT_BUF_CTRL, 4)
    ensures Peek(c', Bridge, DMACMD, W16) == CMD_START
    ensures Peek(c', Board, BOARD_CTRL, W32) == Peek(c, Board, BOARD_CTRL, W32)
    ensures Peek(c', Bridge, INT_CTRL, W32) == Peek(c, Bridge, INT_CTRL, W32)
    ensures c'.resetLatency == c.resetLatency && c'.resetPending == c.resetPending
  {
    var c1 := WriteMarkers(c);
    var c2 := ProgramChannelZero(c1, busAddr);
    ChannelZeroTransfer(c1, busAddr);
    CommandStarted(c1, busAddr);
    PeekUnchanged(c1, c2, Bridge, DMA0MODE, DMACMD + 2 - DMA0MODE, Board, OUT_BUF_CTRL, W32);
    PeekUnchanged(c1, c2, Bridge, DMA0MODE, DMACMD + 2 - DMA0MODE, Board, BOARD_CTRL, W32);
    PeekUnchanged(c1, c2, Bridge, DMA0MODE, DMACMD + 2 - DMA0MODE, Bridge, INT_CTRL, W32);
    c2
  }

  // ---------------------------------------------------------------------
  // The copy the bridge performs as bus master once the channel is started.

  /** A transfer the model can carry out: a single beat of the local bus
      width, to a local address inside the board's register block, from or
      to host memory `host` that sits at bus address `hostAddr`. The PCI
      address register is 32 bits wide, so the bridge reaches `host` only
      when `hostAddr` is below 4 GiB and is the address channel 0 holds. */
  predicate OneBeat(c: Card, hostAddr: nat, host: seq<byte>)
    requires Valid(c)
  {
    var t := ChannelZero(c);
    && hostAddr < 0x1_0000_0000 && t.source == hostAddr as bv32
    && t.byteCount * 8 == t.busWidth
    && t.destination + t.byteCount <= GSC_SIZE
    && t.byteCount <= |host|
  }

  /** The bridge's copy of the transfer channel 0 describes: host to device
      puts the first `byteCount` bytes of `host` at the local address;
      device to host puts the bytes at the local address at the start of
      `host`. The copy is no CPU transaction, so the trace is unchanged. */
  function BusMasterCopy(c: Card, hostAddr: nat, host: seq<byte>): (res: (Card, seq<byte>))
    requires Valid(c) && OneBeat(c, hostAddr, host)
    ensures Valid(res.0) && |res.1| == |host|
    ensures res.0.trace == c.trace && res.0.bridge == c.bridge
    ensures var t := ChannelZero(c);
      && (t.direction == HostToDevice ==>
            res.1 == host && res.0.board[t.destination..t.destination + t.byteCount] == host[..t.byteCount])
      && (t.direction == DeviceToHost ==>
            res.0.board == c.board && res.1[..t.byteCount] == c.board[t.destination..t.destination + t.byteCount])
    ensures var t := ChannelZero(c);
      forall k :: 0 <= k < GSC_SIZE && !(t.destination <= k < t.destination + t.byteCount) ==> res.0.board[k] == c.board[k]
    ensures var t := ChannelZero(c);
      forall k :: t.byteCount <= k < |host| ==> res.1[k] == host[k]
  {
    var t := ChannelZero(c);
    var lo, hi := t.destination, t.destination + t.byteCount;
    match t.direction
    case HostToDevice => (c.(board := c.board[..lo] + host[..t.byteCount] + c.board[hi..]), host)
    case DeviceToHost => (c, c.board[lo..hi] + host[t.byteCount..])
  }

  /** Carrying out the transfer `c` describes from the host memory `host`
      leaves the sentinel word in out_buf_ctrl. */
  ghost predicate DeliversSentinel(c: Card, hostAddr: nat, host: seq<byte>)
    requires Valid(c)
  {
    OneBeat(c, hostAddr, host) && Peek(BusMasterCopy(c, hostAddr, host).0, Board, OUT_BUF_CTRL, W32) == 0x2222_2222
  }

  /** Once the bridge has carried out the started transfer, out_buf_ctrl
      holds the sentinel word 0x22222222 from the host buffer, whatever the
      allocator returned, and the CPU's marker is gone. */
  lemma SentinelDelivered(c: Card, heap: seq<byte>, busAddr: nat)
    requires Valid(c) && |heap| == BUFFER_SIZE
    requires busAddr < 0x1_0000_0000
    ensures DeliversSentinel(DmaTest(c, busAddr), busAddr, FillSentinel(heap))
  {
    var c' := DmaTest(c, busAddr);
    var buf := FillSentinel(heap);
    Low32Below(busAddr);
    var done := BusMasterCopy(c', busAddr, buf).0;
    assert buf[..MAPPED_LENGTH] == [0x22, 0x22, 0x22, 0x22];
    assert done.board[OUT_BUF_CTRL..OUT_BUF_CTRL + 4] == [0x22, 0x22, 0x22, 0x22];
  }

  /** A bus address below 4 GiB survives the truncation to 32 bits. */
  lemma Low32Below(busAddr: nat)
    requires busAddr < 0x1_0000_0000
    ensures Low32(busAddr) == busAddr as bv32
  {
  }
}

=== FILE: driver.dfy ===
/**
  The probe and remove routines as a whole: device_init takes a table slot,
  resets the board, masks the bridge's interrupts, runs the DMA test block
  and creates the device node; device_exit masks interrupts again and gives
  the slot back. The table bookkeeping is the corrected one.
 */
module Driver {

  import opened LittleEndian
  import opened Layout
  import opened RegisterFile
  import opened Bringup
  import opened Dma
  import opened AdapterRegistry
  import Table = AdapterRegistryFixed

  /** Where a write lands. */
  predicate IsWriteTo(a: Access, r: Region, off: nat) {
    a.kind == Wr && a.region == r && a.offset == off
  }

  /** Every write in `t` from index `from` on goes to board_ctrl or int_ctrl. */
  predicate OnlyBringUpWrites(t: seq<Access>, from: nat) {
    forall k :: from <= k < |t| && t[k].kind == Wr ==>
      IsWriteTo(t[k], Board, BOARD_CTRL) || IsWriteTo(t[k], Bridge, INT_CTRL)
  }

  /** What bring-up leaves behind, from `c0` to `c`: the reset request,
      then reads of board_ctrl that see the board busy for exactly
      `resetLatency` reads; if the board became ready (which takes
      latency + 1 reads, so more than `resetLatency` of the `fuel` reads),
      the read-modify-write of int_ctrl clearing bit 11, with board_ctrl
      reading 0. No other register is written. */
  ghost predicate BroughtUp(c0: Card, c: Card, fuel: nat, ready: bool)
    requires RegisterFile.Valid(c0) && RegisterFile.Valid(c)
  {
    && (ready <==> fuel > c0.resetLatency)
    && |c.trace| == |c0.trace| + 1 + (if ready then c0.resetLatency + 3 else fuel)
    && c.trace[..|c0.trace|] == c0.trace
    && c.trace[|c0.trace|] == Access(Wr, Board, BOARD_CTRL, W32, RESET_BIT)
    && (forall k :: |c0.trace| < k <= |c0.trace| + c0.resetLatency + 1 && k < |c.trace| ==>
          IsBoardCtrlRead(c.trace[k]) && (Busy(c.trace[k].value) <==> k <= |c0.trace| + c0.resetLatency))
    && OnlyBringUpWrites(c.trace, |c0.trace|)
    && (ready ==>
         var n := |c0.trace| + c0.resetLatency + 2;
         && c.trace[n].kind == Rd && c.trace[n].region == Bridge && c.trace[n].offset == INT_CTRL
         && IsWriteTo(c.trace[n + 1], Bridge, INT_CTRL)
         && c.resetPending == 0 && Peek(c, Board, BOARD_CTRL, W32) == 0
         && ClearedBit11(Peek(c0, Bridge, INT_CTRL, W32), Peek(c, Bridge, INT_CTRL, W32)))
    && c.resetLatency == c0.resetLatency
  }

  /** device_reset_board followed by device_disable_plx_interrupts, the
      latter only once the reset has completed. */
  method BringUp(c0: Card, fuel: nat) returns (c: Card, ready: bool)
    requires RegisterFile.Valid(c0)
    ensures RegisterFile.Valid(c) && BroughtUp(c0, c, fuel, ready)
  {
    var polls;
    c, polls, ready := ResetBoard(c0, fuel);
    if ready {
      var c1 := c;
      c := DisablePlxInterrupts(c1);
      PeekUnchanged(c1, c, Bridge, INT_CTRL, 4, Board, BOARD_CTRL, W32);
      PeekUnchanged(c0, c1, Board, BOARD_CTRL, 4, Bridge, INT_CTRL, W32);
      assert c.trace[..|c1.trace|] == c1.trace;
      assert c.trace[..|c0.trace|] == c1.trace[..|c0.trace|];
    }
  }

  /** The registers once device_init returns, before the bridge has copied
      anything: the board out of reset, the bridge's interrupt-enable bit
      cleared, out_buf_ctrl holding the CPU's marker, and channel 0 started
      on the sentinel transfer. */
  ghost predicate Initialized(c0: Card, c: Card, busAddr: nat)
    requires RegisterFile.Valid(c0) && RegisterFile.Valid(c)
  {
    && c.resetPending == 0 && Peek(c, Board, BOARD_CTRL, W32) == 0
    && ClearedBit11(Peek(c0, Bridge, INT_CTRL, W32), Peek(c, Bridge, INT_CTRL, W32))
    && Peek(c, Board, OUT_BUF_CTRL, W32) == 0xAA
    && ChannelZero(c) == Transfer(32, true, HostToDevice, Low32(busAddr), OUT_BUF_CTRL, 4)
    && Peek(c, Bridge, DMACMD, W16) == CMD_START
  }

  /**
    device_init for device `d` on a board whose registers are `c0`.
    `heap` is what the allocator hands back for the DMA buffer and
    `busAddr` the address the mapping returns for it. The reset poll
    reads board_ctrl at most `fuel` times; when the board is still busy
    after that, `ready` is false: the source would still be polling, so
    only the shared objects and the reset traffic have happened. `mid` is
    the board as bring-up leaves it; every DMA register write comes after
    its traffic. Once the bridge carries out the started transfer,
    out_buf_ctrl holds the sentinel word from `buf`.
   */
  method DeviceInit(r: Registry, c0: Card, d: PciDevice, heap: seq<byte>, busAddr: nat, fuel: nat)
    returns (r': Registry, mid: Card, c: Card, buf: seq<byte>, events: seq<Event>, ready: bool)
    requires Table.Valid(r) && r.count < MAX_ADAPTERS && Handle(d) && !Table.Attached(r, d.id)
    requires RegisterFile.Valid(c0) && |heap| == BUFFER_SIZE
    ensures RegisterFile.Valid(mid) && RegisterFile.Valid(c) && Table.Valid(r')
    ensures BroughtUp(c0, mid, fuel, ready)
    ensures !ready ==> c == mid && r' == r && events == (if r.count == 0 then [CreateShared] else [])
    ensures ready ==> r' == Table.Probe(r, d).reg && events == Table.Probe(r, d).events
    ensures ready ==> buf == FillSentinel(heap)
    ensures ready ==> c.trace == mid.trace + AsAccesses(MarkerWrites) + AsAccesses(DescriptorProgram(busAddr))
    ensures ready ==> Initialized(c0, c, busAddr)
    ensures ready && busAddr < 0x1_0000_0000 ==> DeliversSentinel(c, busAddr, buf)
  {
    mid, ready := BringUp(c0, fuel);
    c := mid;
    buf := heap;
    if !ready {
      r' := r;
      events := if r.count == 0 then [CreateShared] else [];
      return;
    }
    buf := FillSentinel(heap);
    c := DmaTest(mid, busAddr);
    if busAddr < 0x1_0000_0000 {
      SentinelDelivered(mid, heap, busAddr);
    }
    var p := Table.Probe(r, d);
    r' := p.reg;
    events := p.events;
  }

  /** device_exit for the device with handle `dev`, whose bridge registers
      are those of `c0`: its interrupts are masked again, its slot is
      zeroed and its node destroyed, and the shared objects go with the
      last adapter. */
  method DeviceExit(r: Registry, c0: Card, dev: nat) returns (r': Registry, c: Card, gone: Adapter, events: seq<Event>)
    requires Table.Valid(r) && Table.Attached(r, dev) && RegisterFile.Valid(c0)
    ensures Table.Valid(r') && r'.count + 1 == r.count && !Table.Attached(r', dev)
    ensures gone.dev == dev && exists k :: 0 <= k < MAX_ADAPTERS && r.slots[k] == gone && r'.slots == r.slots[k := ZERO]
    ensures events == [DestroyNode(gone.minor)] + (if r'.count == 0 then [DestroyShared] else [])
    ensures RegisterFile.Valid(c)
    ensures ClearedBit11(Peek(c0, Bridge, INT_CTRL, W32), Peek(c, Bridge, INT_CTRL, W32))
    ensures OnlyChanged(c0, c, Bridge, INT_CTRL, 4)
    ensures |c.trace| == |c0.trace| + 2
  {
    c := DisablePlxInterrupts(c0);
    var q := Table.Remove(r, dev);
    r' := q.reg;
    gone := q.adapter;
    events := q.events;
  }
}

=== FILE: layout.dfy ===
/**
  The two packed register structures the driver overlays on the card's
  memory-mapped regions: the board's own registers (gsc_cfg_regs_t, BAR 2)
  and the PLX 9080 bridge registers (plx_cfg_regs_t, BAR 0).

  A layout is the list of a structure's members in declaration order. Because
  the structures are packed, a member's byte offset is the sum of the sizes of
  the members before it; the declaration also writes most offsets in a
  comment, and `doc` records that comment so the two can be compared.
 */
module Layout {

  import opened Options
  import opened LittleEndian

  /** One member of a packed structure: a scalar (`count` 1) or an array of `count` elements. */
  datatype Field = Field(name: string, width: Width, count: nat, doc: Option<nat>)

  /** Bytes a member occupies. */
  function Size(f: Field): nat {
    match f.width
    case W8 => f.count
    case W16 => 2 * f.count
    case W32 => 4 * f.count
  }

  /** Byte offset of `fields[i]` in the packed structure (offsetof). */
  function OffsetOf(fields: seq<Field>, i: nat): nat
    requires i <= |fields|
  {
    if i == 0 then 0 else OffsetOf(fields, i - 1) + Size(fields[i - 1])
  }

  /** Size of the packed structure (sizeof). */
  function SizeOf(fields: seq<Field>): nat {
    OffsetOf(fields, |fields|)
  }

  /** Every offset written beside a member agrees with the offset packing gives it. */
  ghost predicate MatchesDoc(fields: seq<Field>) {
    forall i :: 0 <= i < |fields| && fields[i].doc.Some? ==> OffsetOf(fields, i) == fields[i].doc.value
  }

  /** Walks the declaration from member `i`, which sits at offset `off`, and
      checks every written offset on the way. Being a forward walk over a
      constant, it evaluates without help. */
  function AgreesFrom(fields: seq<Field>, i: nat, off: nat): bool
    requires i <= |fields|
    decreases |fields| - i
  {
    i == |fields| ||
    ((fields[i].doc.None? || fields[i].doc.value == off) && AgreesFrom(fields, i + 1, off + Size(fields[i])))
  }

  /** The end offset reached by walking the declaration from member `i` at offset `off`. */
  function EndFrom(fields: seq<Field>, i: nat, off: nat): nat
    requires i <= |fields|
    decreases |fields| - i
  {
    if i == |fields| then off else EndFrom(fields, i + 1, off + Size(fields[i]))
  }

  /** The walk checks exactly the written offsets from member `k` on. */
  lemma {:induction false} AgreesFromMeansMatches(fields: seq<Field>, k: nat)
    requires k <= |fields|
    ensures AgreesFrom(fields, k, OffsetOf(fields, k)) <==>
            forall i :: k <= i < |fields| && fields[i].doc.Some? ==> OffsetOf(fields, i) == fields[i].doc.value
    decreases |fields| - k
  {
    if k < |fields| {
      assert OffsetOf(fields, k + 1) == OffsetOf(fields, k) + Size(fields[k]);
      AgreesFromMeansMatches(fields, k + 1);
    }
  }

  /** The walk from member `k` ends at the size of the structure. */
  lemma {:induction false} EndFromIsSize(fields: seq<Field>, k: nat)
    requires k <= |fields|
    ensures EndFrom(fields, k, OffsetOf(fields, k)) == SizeOf(fields)
    decreases |fields| - k
  {
    if k < |fields| {
      assert OffsetOf(fields, k + 1) == OffsetOf(fields, k) + Size(fields[k]);
      EndFromIsSize(fields, k + 1);
    }
  }

  /** A walk over `b` alone behaves like the rest of a walk over `a + b`. */
  lemma {:induction false} WalkShift(a: seq<Field>, b: seq<Field>, j: nat, off: nat)
    requires j <= |b|
    ensures AgreesFrom(a + b, |a| + j, off) == AgreesFrom(b, j, off)
    ensures EndFrom(a + b, |a| + j, off) == EndFrom(b, j, off)
    decreases |b| - j
  {
    if j < |b| {
      assert (a + b)[|a| + j] == b[j];
      WalkShift(a, b, j + 1, off + Size(b[j]));
    }
  }

  /** Walking `a + b` is walking `a`, then `b` from where `a` ended. */
  lemma {:induction false} WalkAppend(a: seq<Field>, b: seq<Field>, i: nat, off: nat)
    requires i <= |a|
    ensures AgreesFrom(a + b, i, off) == (AgreesFrom(a, i, off) && AgreesFrom(b, 0, EndFrom(a, i, off)))
    ensures EndFrom(a + b, i, off) == EndFrom(b, 0, EndFrom(a, i, off))
    decreases |a| - i
  {
    if i == |a| {
      WalkShift(a, b, 0, off);
    } else {
      assert (a + b)[i] == a[i];
      WalkAppend(a, b, i + 1, off + Size(a[i]));
    }
  }

  /** Offsets only grow along the declaration. */
  lemma {:induction false} OffsetMonotone(fields: seq<Field>, i: nat, j: nat)
    requires i <= j <= |fields|
    ensures OffsetOf(fields, i) <= OffsetOf(fields, j)
    decreases j
  {
    if i < j {
      OffsetMonotone(fields, i, j - 1);
    }
  }

  /** Packing leaves no overlap: a member ends at or before every later member begins. */
  lemma {:induction false} FieldsDisjoint(fields: seq<Field>, i: nat, j: nat)
    requires i < j < |fields|
    ensures OffsetOf(fields, i) + Size(fields[i]) <= OffsetOf(fields, j)
  {
    assert OffsetOf(fields, i + 1) == OffsetOf(fields, i) + Size(fields[i]);
    OffsetMonotone(fields, i + 1, j);
  }

  /** Every member lies inside the structure. */
  lemma {:induction false} FieldInside(fields: seq<Field>, i: nat)
    requires i < |fields|
    ensures OffsetOf(fields, i) + Size(fields[i]) <= SizeOf(fields)
  {
    assert OffsetOf(fields, i + 1) == OffsetOf(fields, i) + Size(fields[i]);
    OffsetMonotone(fields, i + 1, |fields|);
  }

  // ---------------------------------------------------------------------
  // The two structures, member by member, as declared.

  /** gsc_cfg_regs_t: the board's registers. */
  const GscFields: seq<Field> := [
    Field("board_ctrl", W32, 1, Some(0x00)),
    Field("intr_ctrl", W32, 1, Some(0x04)),
    Field("inp_data_buf", W32, 1, Some(0x08)),
    Field("inp_buf_ctrl", W32, 1, Some(0x0C)),
    Field("rate_a_gen", W32, 1, Some(0x10)),
    Field("rate_b_gen", W32, 1, Some(0x14)),
    Field("out_data_buf", W32, 1, Some(0x18)),
    Field("out_buf_ctrl", W32, 1, Some(0x1C)),
    Field("scan_sync_ctrl", W32, 1, Some(0x20)),
    Field("io_port", W32, 1, Some(0x24)),
    Field("fw_rev", W32, 1, Some(0x28)),
    Field("autocal", W32, 1, Some(0x2C)),
    Field("reserved", W32, 4, Some(0x30))
  ]

  /** plx_cfg_regs_t: the PLX 9080 bridge's registers, declared in three stretches
      that follow the data book's grouping. */
  const PlxFields: seq<Field> := PlxLocalConfig + PlxRuntime + PlxDma

  /** Local configuration registers, 0x00 to 0x2F. */
  const PlxLocalConfig: seq<Field> := [
    Field("direct_slave_range", W32, 1, Some(0x00)),
    Field("direct_slave_local_address", W32, 1, Some(0x04)),
    Field("dma_arbitration", W32, 1, Some(0x08)),
    Field("endian_desc", W8, 1, Some(0x0C)),
    Field("misc_control_1", W8, 1, None),
    Field("eeprom_write_protect_boundary", W8, 1, None),
    Field("misc_control_2", W8, 1, None),
    Field("slave_expansion_rom_address", W32, 1, Some(0x10)),
    Field("slace_expansion_address", W32, 1, Some(0x14)),
    Field("expansion_rom_descriptor", W32, 1, Some(0x18)),
    Field("m2p_range", W32, 1, Some(0x1C)),
    Field("m2p_address", W32, 1, Some(0x20)),
    Field("m2p_config", W32, 1, Some(0x24)),
    Field("m2p_config_address", W32, 1, Some(0x28)),
    Field("direct_space_address", W32, 1, Some(0x2C))
  ]

  /** Runtime registers, 0x30 to 0x7F. */
  const PlxRuntime: seq<Field> := [
    Field("unused", W32, 4, Some(0x30)),
    Field("mailbox1", W32, 8, Some(0x40)),
    Field("p2l_doorbell", W32, 1, Some(0x60)),
    Field("l2p_doorbell", W32, 1, Some(0x64)),
    Field("int_ctrl", W32, 1, Some(0x68)),
    Field("ctrl", W32, 1, Some(0x6C)),
    Field("pci_vendor", W16, 1, Some(0x70)),
    Field("pci_device", W16, 1, None),
    Field("pci_revision", W8, 1, Some(0x74)),
    Field("rt_res", W8, 3, None),
    Field("mailbox2", W32, 2, Some(0x78))
  ]

  /** DMA registers, 0x80 to 0xB3. */
  const PlxDma: seq<Field> := [
    Field("dma0mode", W32, 1, Some(0x80)),
    Field("dma0pciaddr", W32, 1, Some(0x84)),
    Field("dma0lcladdr", W32, 1, Some(0x88)),
    Field("dma0bytecnt", W32, 1, Some(0x8C)),
    Field("dma0pnt", W32, 1, Some(0x90)),
    Field("dma1mode", W32, 1, Some(0x94)),
    Field("dma1pciaddr", W32, 1, Some(0x98)),
    Field("dma1lcladdr", W32, 1, Some(0x9C)),
    Field("dma1bytecnt", W32, 1, Some(0xA0)),
    Field("dma1pnt", W32, 1, Some(0xA4)),
    Field("dmacmd", W16, 1, Some(0xA8)),
    Field("poop", W16, 1, Some(0xAA)),
    Field("dmaarb", W32, 1, Some(0xAC)),
    Field("dmathreshold", W32, 1, Some(0xB0))
  ]

  // Offsets the rest of the model uses, by name.
  const GSC_SIZE: nat := 0x40
  const PLX_SIZE: nat := 0xB4
  const BOARD_CTRL: nat := 0x00
  const OUT_BUF_CTRL: nat := 0x1C
  const INT_CTRL: nat := 0x68
  const DMA0MODE: nat := 0x80
  const DMA0PCIADDR: nat := 0x84
  const DMA0LCLADDR: nat := 0x88
  const DMA0BYTECNT: nat := 0x8C
  const DMA0PNT: nat := 0x90
  const DMACMD: nat := 0xA8


  /** Member `i` is the scalar `name` of width `w` at byte offset `off`. */
  ghost predicate FieldAt(fields: seq<Field>, i: nat, name: string, w: Width, off: nat) {
    && i < |fields|
    && fields[i] == Field(name, w, 1, fields[i].doc)
    && OffsetOf(fields, i) == off
  }

  /** gsc_cfg_regs_t: every offset written in the declaration is the packed
      offset, the block is 0x40 bytes, and the two registers the driver
      touches are where it addresses them. */
  lemma GscLayout()
    ensures MatchesDoc(GscFields)
    ensures SizeOf(GscFields) == GSC_SIZE
    ensures FieldAt(GscFields, 0, "board_ctrl", W32, BOARD_CTRL)
    ensures FieldAt(GscFields, 7, "out_buf_ctrl", W32, OUT_BUF_CTRL)
  {
    assert AgreesFrom(GscFields, 0, 0);
    AgreesFromMeansMatches(GscFields, 0);
    assert EndFrom(GscFields, 0, 0) == 0x40;
    EndFromIsSize(GscFields, 0);
  }

  /** The local configuration stretch agrees with its written offsets and ends at 0x30. */
  lemma PlxLocalConfigWalk()
    ensures AgreesFrom(PlxLocalConfig, 0, 0) && EndFrom(PlxLocalConfig, 0, 0) == 0x30
  {
    assert EndFrom(PlxLocalConfig, 7, 0x10) == 0x30;
  }

  /** The runtime stretch agrees with its written offsets and ends at 0x80. */
  lemma PlxRuntimeWalk()
    ensures AgreesFrom(PlxRuntime, 0, 0x30) && EndFrom(PlxRuntime, 0, 0x30) == 0x80
  {
  }

  /** The DMA stretch agrees with its written offsets and ends at 0xB4. */
  lemma PlxDmaWalk()
    ensures AgreesFrom(PlxDma, 0, 0x80) && EndFrom(PlxDma, 0, 0x80) == 0xB4
  {
    assert EndFrom(PlxDma, 7, 0x9C) == 0xB4;
  }

  /** plx_cfg_regs_t: every offset written in the declaration is the packed
      offset, the block ends at 0xB4, and the interrupt-control and DMA
      channel-0 registers the driver touches are where it addresses them. */
  lemma PlxLayout()
    ensures MatchesDoc(PlxFields)
    ensures SizeOf(PlxFields) == PLX_SIZE
  {
    PlxLocalConfigWalk();
    PlxRuntimeWalk();
    PlxDmaWalk();
    WalkAppend(PlxLocalConfig, PlxRuntime, 0, 0);
    WalkAppend(PlxLocalConfig + PlxRuntime, PlxDma, 0, 0);
    AgreesFromMeansMatches(PlxFields, 0);
    EndFromIsSize(PlxFields, 0);
  }

  /** The bridge registers the driver touches sit where the driver expects
      them, with the widths it uses. */
  lemma PlxRegisters()
    ensures FieldAt(PlxFields, 19, "int_ctrl", W32, INT_CTRL)
    ensures FieldAt(PlxFields, 26, "dma0mode", W32, DMA0MODE)
    ensures FieldAt(PlxFields, 27, "dma0pciaddr", W32, DMA0PCIADDR)
    ensures FieldAt(PlxFields, 28, "dma0lcladdr", W32, DMA0LCLADDR)
    ensures FieldAt(PlxFields, 29, "dma0bytecnt", W32, DMA0BYTECNT)
    ensures FieldAt(PlxFields, 30, "dma0pnt", W32, DMA0PNT)
    ensures FieldAt(PlxFields, 36, "dmacmd", W16, DMACMD)
    ensures FieldAt(PlxFields, 39, "dmathreshold", W32, 0xB0)
  {
    PlxLayout();
  }

}

=== FILE: little_endian.dfy ===
/**
  Byte order of the card's register blocks. Both blocks are packed and
  little-endian: a multi-byte field is stored least significant byte first,
  whatever the host's own byte order (the driver converts with
  cpu_to_le32/le32_to_cpu and cpu_to_le16 on every access).

  Values of every width are carried as bv32; a value of a narrower field has
  its upper bits clear.
 */
module LittleEndian {

  type byte = bv8

  /** The three field widths the register blocks use: u8, u16 and u32. */
  datatype Width = W8 | W16 | W32

  /** Number of bytes a field of width `w` occupies. */
  function Bytes(w: Width): nat {
    match w
    case W8 => 1
    case W16 => 2
    case W32 => 4
  }

  /** True if `v` is representable in a field of width `w`. */
  predicate Fits(w: Width, v: bv32) {
    match w
    case W8 => v <= 0xFF
    case W16 => v <= 0xFFFF
    case W32 => true
  }

  /** The bytes stored for value `v` in a field of width `w`, lowest address first. */
  function Encode(w: Width, v: bv32): (b: seq<byte>)
    requires Fits(w, v)
    ensures |b| == Bytes(w)
    ensures Decode(w, b) == v
  {
    match w
    case W8 => EncodeByte(v)
    case W16 => EncodeHalf(v)
    case W32 => EncodeWord(v)
  }

  /** The value of a field of width `w` whose bytes, lowest address first, are `b`. */
  function Decode(w: Width, b: seq<byte>): (v: bv32)
    requires |b| == Bytes(w)
    ensures Fits(w, v)
  {
    match w
    case W8 => DecodeByte(b)
    case W16 => DecodeHalf(b)
    case W32 => DecodeWord(b)
  }

  function EncodeByte(v: bv32): (b: seq<byte>)
    requires v <= 0xFF
    ensures |b| == 1 && DecodeByte(b) == v
  {
    [v as byte]
  }

  function DecodeByte(b: seq<byte>): (v: bv32)
    requires |b| == 1
    ensures v <= 0xFF
  {
    b[0] as bv32
  }

  function EncodeHalf(v: bv32): (b: seq<byte>)
    requires v <= 0xFFFF
    ensures |b| == 2 && DecodeHalf(b) == v
  {
    var b := [(v & 0xFF) as byte, (v >> 8) as byte];
    HalfLanes(v, b[0], b[1]);
    b
  }

  function DecodeHalf(b: seq<byte>): (v: bv32)
    requires |b| == 2
    ensures v <= 0xFFFF
  {
    (b[0] as bv32) | ((b[1] as bv32) << 8)
  }

  function EncodeWord(v: bv32): (b: seq<byte>)
    ensures |b| == 4 && DecodeWord(b) == v
  {
    var b := [(v & 0xFF) as byte, ((v >> 8) & 0xFF) as byte, ((v >> 16) & 0xFF) as byte, (v >> 24) as byte];
    WordLanes(v, b[0], b[1], b[2], b[3]);
    b
  }

  function DecodeWord(b: seq<byte>): bv32
    requires |b| == 4
  {
    (b[0] as bv32) | ((b[1] as bv32) << 8) | ((b[2] as bv32) << 16) | ((b[3] as bv32) << 24)
  }

  /** The two byte lanes of a 16-bit value reassemble to the value. */
  lemma HalfLanes(v: bv32, b0: byte, b1: byte)
    requires v <= 0xFFFF
    requires b0 == (v & 0xFF) as byte && b1 == (v >> 8) as byte
    ensures (b0 as bv32) | ((b1 as bv32) << 8) == v
  {
  }

  /** The four byte lanes of a 32-bit value reassemble to the value. */
  lemma WordLanes(v: bv32, b0: byte, b1: byte, b2: byte, b3: byte)
    requires b0 == (v & 0xFF) as byte && b1 == ((v >> 8) & 0xFF) as byte
    requires b2 == ((v >> 16) & 0xFF) as byte && b3 == (v >> 24) as byte
    ensures (b0 as bv32) | ((b1 as bv32) << 8) | ((b2 as bv32) << 16) | ((b3 as bv32) << 24) == v
  {
  }

  /** Splitting a reassembled 16-bit value gives back its two bytes. */
  lemma HalfBytes(b0: byte, b1: byte, v: bv32)
    requires v == (b0 as bv32) | ((b1 as bv32) << 8)
    ensures (v & 0xFF) as byte == b0 && (v >> 8) as byte == b1
  {
  }

  /** Splitting a reassembled 32-bit value gives back its four bytes. */
  lemma WordBytes(b0: byte, b1: byte, b2: byte, b3: byte, v: bv32)
    requires v == (b0 as bv32) | ((b1 as bv32) << 8) | ((b2 as bv32) << 16) | ((b3 as bv32) << 24)
    ensures (v & 0xFF) as byte == b0 && ((v >> 8) & 0xFF) as byte == b1
    ensures ((v >> 16) & 0xFF) as byte == b2 && (v >> 24) as byte == b3
  {
  }

  /** Decoding then re-encoding gives back the same bytes: together with
      Encode's contract, the two are inverse bijections for every width. */
  lemma EncodeDecode(w: Width, b: seq<byte>)
    requires |b| == Bytes(w)
    ensures Encode(w, Decode(w, b)) == b
  {
    match w
    case W8 =>
    case W16 => EncodeDecodeHalf(b);
    case W32 => EncodeDecodeWord(b);
  }

  lemma EncodeDecodeHalf(b: seq<byte>)
    requires |b| == 2
    ensures Encode(W16, Decode(W16, b)) == b
  {
    HalfBytes(b[0], b[1], DecodeHalf(b));
  }

  lemma EncodeDecodeWord(b: seq<byte>)
    requires |b| == 4
    ensures Encode(W32, Decode(W32, b)) == b
  {
    WordBytes(b[0], b[1], b[2], b[3], DecodeWord(b));
  }

}

=== FILE: options.dfy ===
/** A value that may be absent. */
module Options {

  datatype Option<+T> = None | Some(value: T)

}

=== FILE: register_file.dfy ===
/**
  The card as the driver sees it through its two memory mappings: the bytes of
  the bridge block (BAR 0, plx_cfg_regs_t) and of the board block (BAR 2,
  gsc_cfg_regs_t), together with the ordered trace of bus transactions the
  driver has issued. Every field access is exactly one transaction of the
  field's width; nothing is reordered or merged.

  The registers behave as plain memory, with one exception the driver depends
  on: bit 15 of the board's board_ctrl register. Writing it requests a board
  reset; while the reset is in progress a 32-bit read of board_ctrl returns the
  bit set, and once it is over the bit reads clear. How long a reset takes is
  the board's business; the model makes it a parameter, `resetLatency`, the
  number of reads that still see the bit set after the request.
 */
module RegisterFile {

  import opened LittleEndian
  import opened Layout

  /** The two memory regions: BAR 0 maps the bridge, BAR 2 the board. */
  datatype Region = Bridge | Board

  datatype Kind = Rd | Wr

  /** One bus transaction. For a read, `value` is what the card returned. */
  datatype Access = Access(kind: Kind, region: Region, offset: nat, width: Width, value: bv32)

  /** The register contents of one card, the transactions issued to it so
      far, and the state of its reset logic. */
  datatype Card = Card(
    bridge: seq<byte>,
    board: seq<byte>,
    trace: seq<Access>,
    resetLatency: nat,
    resetPending: nat)

  /** Bit 15 of board_ctrl: written to request a reset, read as "reset still in progress". */
  const RESET_BIT: bv32 := 0x0000_8000

  function BlockSize(r: Region): nat {
    match r
    case Bridge => PLX_SIZE
    case Board => GSC_SIZE
  }

  /** A field of width `w` at `off` lies inside region `r`. */
  predicate InBlock(r: Region, off: nat, w: Width) {
    off + Bytes(w) <= BlockSize(r)
  }

  /** Both blocks have the size of their structure. */
  predicate Valid(c: Card) {
    |c.bridge| == PLX_SIZE && |c.board| == GSC_SIZE
  }

  function Block(c: Card, r: Region): seq<byte> {
    match r
    case Bridge => c.bridge
    case Board => c.board
  }

  function WithBlock(c: Card, r: Region, bytes: seq<byte>): Card {
    match r
    case Bridge => c.(bridge := bytes)
    case Board => c.(board := bytes)
  }

  /** The value a field currently holds (no bus transaction). */
  function Peek(c: Card, r: Region, off: nat, w: Width): bv32
    requires Valid(c) && InBlock(r, off, w)
  {
    Decode(w, Block(c, r)[off..off + Bytes(w)])
  }

  /** `bytes` with the little-endian encoding of `v` stored at `off`. */
  function Store(bytes: seq<byte>, off: nat, w: Width, v: bv32): (s: seq<byte>)
    requires off + Bytes(w) <= |bytes| && Fits(w, v)
    ensures |s| == |bytes|
    ensures s[off..off + Bytes(w)] == Encode(w, v)
    ensures forall k :: 0 <= k < |bytes| && !(off <= k < off + Bytes(w)) ==> s[k] == bytes[k]
  {
    bytes[..off] + Encode(w, v) + bytes[off + Bytes(w)..]
  }

  /** `c2` holds the same register bytes as `c1` except, possibly, bytes
      [off, off + n) of region `r`. */
  ghost predicate OnlyChanged(c1: Card, c2: Card, r: Region, off: nat, n: nat)
    requires Valid(c1) && Valid(c2)
  {
    && (r == Board || c2.board == c1.board)
    && (r == Bridge || c2.bridge == c1.bridge)
    && forall k :: 0 <= k < BlockSize(r) && !(off <= k < off + n) ==> Block(c2, r)[k] == Block(c1, r)[k]
  }

  /** Same register contents and reset state; only the traces may differ. */
  predicate SameRegisters(c1: Card, c2: Card) {
    && c1.bridge == c2.bridge
    && c1.board == c2.board
    && c1.resetLatency == c2.resetLatency
    && c1.resetPending == c2.resetPending
  }

  /** The board's control register, read or written as a whole word. */
  predicate IsBoardCtrl(r: Region, off: nat, w: Width) {
    r == Board && off == BOARD_CTRL && w == W32
  }

  /** A write of `v` to the field of width `w` at `off` in region `r`. */
  function Write(c: Card, r: Region, off: nat, w: Width, v: bv32): (c': Card)
    requires Valid(c) && InBlock(r, off, w) && Fits(w, v)
    ensures Valid(c')
    ensures Peek(c', r, off, w) == v
    ensures OnlyChanged(c, c', r, off, Bytes(w))
    ensures c'.trace == c.trace + [Access(Wr, r, off, w, v)]
    ensures c'.resetLatency == c.resetLatency
    ensures c'.resetPending == if IsBoardCtrl(r, off, w) && v & RESET_BIT != 0 then c.resetLatency else c.resetPending
  {
    var c1 := WithBlock(c, r, Store(Block(c, r), off, w, v)).(trace := c.trace + [Access(Wr, r, off, w, v)]);
    if IsBoardCtrl(r, off, w) && v & RESET_BIT != 0 then c1.(resetPending := c.resetLatency) else c1
  }

  /** A read of the field of width `w` at `off` in region `r`: the card and
      the value returned. */
  function Read(c: Card, r: Region, off: nat, w: Width): (res: (Card, bv32))
    requires Valid(c) && InBlock(r, off, w)
    ensures Valid(res.0)
    ensures res.0.trace == c.trace + [Access(Rd, r, off, w, res.1)]
    ensures res.0.resetLatency == c.resetLatency
    ensures !IsBoardCtrl(r, off, w) ==> res.1 == Peek(c, r, off, w) && SameRegisters(res.0, c)
    ensures IsBoardCtrl(r, off, w) ==> ReportsReset(c, res.0, res.1)
  {
    if IsBoardCtrl(r, off, w) then
      ReadBoardCtrl(c)
    else
      var raw := Peek(c, r, off, w);
      (c.(trace := c.trace + [Access(Rd, r, off, w, raw)]), raw)
  }

  /** What a board_ctrl read returning `v` does, from `c` to `c'`: bit 15
      of `v` reports whether a reset is still pending, the other bits are the
      register's, the register then holds `v`, and one read of the reset's
      latency is used up. */
  ghost predicate ReportsReset(c: Card, c': Card, v: bv32)
    requires Valid(c) && Valid(c')
  {
    && (Busy(v) <==> c.resetPending > 0)
    && SameOtherBits(v, Peek(c, Board, BOARD_CTRL, W32))
    && Peek(c', Board, BOARD_CTRL, W32) == v
    && OnlyChanged(c, c', Board, BOARD_CTRL, 4)
    && c'.resetPending == if c.resetPending > 0 then c.resetPending - 1 else 0
  }

  /** The board side of a board_ctrl read: bit 15 reports whether a reset is
      still in progress, and the reset logic counts the read. */
  function ReadBoardCtrl(c: Card): (res: (Card, bv32))
    requires Valid(c)
    ensures Valid(res.0)
    ensures res.0.trace == c.trace + [Access(Rd, Board, BOARD_CTRL, W32, res.1)]
    ensures res.0.resetLatency == c.resetLatency
    ensures ReportsReset(c, res.0, res.1)
  {
    var raw := Peek(c, Board, BOARD_CTRL, W32);
    var busy := c.resetPending > 0;
    var v := WithBusyBit(raw, busy);
    var pending := if busy then c.resetPending - 1 else 0;
    var c' := c.(board := Store(c.board, BOARD_CTRL, W32, v),
                 trace := c.trace + [Access(Rd, Board, BOARD_CTRL, W32, v)],
                 resetPending := pending);
    (c', v)
  }

  /** A board_ctrl value that reports a reset still in progress. */
  predicate Busy(v: bv32) {
    v & RESET_BIT != 0
  }

  /** `a` and `b` agree on every bit but bit 15. */
  predicate SameOtherBits(a: bv32, b: bv32) {
    a & !RESET_BIT == b & !RESET_BIT
  }

  /** `raw` with bit 15 forced to `busy`; the other 31 bits are kept. */
  function WithBusyBit(raw: bv32, busy: bool): (v: bv32)
    ensures Busy(v) <==> busy
    ensures SameOtherBits(v, raw)
  {
    if busy then
      SetBit15(raw);
      raw | RESET_BIT
    else
      ClearBit15(raw);
      raw & !RESET_BIT
  }

  lemma SetBit15(raw: bv32)
    ensures (raw | RESET_BIT) & RESET_BIT != 0
    ensures (raw | RESET_BIT) & !RESET_BIT == raw & !RESET_BIT
  {
  }

  lemma ClearBit15(raw: bv32)
    ensures (raw & !RESET_BIT) & RESET_BIT == 0
    ensures (raw & !RESET_BIT) & !RESET_BIT == raw & !RESET_BIT
  {
  }

  /** A field no transaction touched still holds its value. */
  lemma PeekUnchanged(c1: Card, c2: Card, r: Region, off: nat, n: nat, r2: Region, off2: nat, w2: Width)
    requires Valid(c1) && Valid(c2) && OnlyChanged(c1, c2, r, off, n)
    requires InBlock(r2, off2, w2)
    requires r2 != r || off2 + Bytes(w2) <= off || off + n <= off2
    ensures Peek(c2, r2, off2, w2) == Peek(c1, r2, off2, w2)
  {
    if r2 == r {
      assert Block(c2, r2)[off2..off2 + Bytes(w2)] == Block(c1, r2)[off2..off2 + Bytes(w2)];
    }
  }

  /** Round trip: outside board_ctrl's reset bit, a field reads
      back the value last written to it, for every width. */
  lemma WriteThenRead(c: Card, r: Region, off: nat, w: Width, v: bv32)
    requires Valid(c) && InBlock(r, off, w) && Fits(w, v)
    requires !IsBoardCtrl(r, off, w)
    ensures Read(Write(c, r, off, w, v), r, off, w).1 == v
  {
  }

  /** Storing the value a field already holds changes nothing. */
  lemma StoreSame(bytes: seq<byte>, off: nat, w: Width)
    requires off + Bytes(w) <= |bytes|
    ensures Store(bytes, off, w, Decode(w, bytes[off..off + Bytes(w)])) == bytes
  {
    var v := Decode(w, bytes[off..off + Bytes(w)]);
    EncodeDecode(w, bytes[off..off + Bytes(w)]);
    assert bytes == bytes[..off] + bytes[off..off + Bytes(w)] + bytes[off + Bytes(w)..];
  }

}

=== FILE: registry.dfy ===
/**
  The adapter table as device_init and device_exit keep it: four slots and
  a count of live adapters. device_init always fills slot `count`;
  device_exit zeroes the first slot among 0 .. count-1 that holds the
  device and decrements the count. The events say which kernel objects
  are created and destroyed.
 */
module AdapterRegistry {

  import opened Options

  const MAX_ADAPTERS: nat := 4

  /** What the PCI core hands to the probe routine: a non-NULL device
      handle, the two mapped BARs and the interrupt line. The mappings are
      opaque handles here. */
  datatype PciDevice = PciDevice(id: nat, bar0: nat, bar2: nat, irq: nat)

  predicate Handle(d: PciDevice) { d.id != 0 }

  /** One slot of the table; an all-zero slot is free (dev is NULL). */
  datatype Adapter = Adapter(dev: nat, minor: nat, plxRegs: nat, gscRegs: nat, irq: nat)

  const ZERO: Adapter := Adapter(0, 0, 0, 0, 0)

  datatype Registry = Registry(slots: seq<Adapter>, count: nat)

  predicate WellSized(r: Registry) {
    |r.slots| == MAX_ADAPTERS && r.count <= MAX_ADAPTERS
  }

  const EMPTY: Registry := Registry([ZERO, ZERO, ZERO, ZERO], 0)

  /** Kernel objects the driver creates and destroys. `CreateShared` stands
      for the proc entry, the character-device region and the device class
      together; `CreateNode(m, n)` for the node /dev/16aio.<n> with minor m. */
  datatype Event =
    | CreateShared
    | CreateNode(minor: nat, index: nat)
    | DestroyNode(minor: nat)
    | DestroyShared

  /** The slot entry device_init writes for `d` when it takes slot `k`. */
  function AdapterFor(d: PciDevice, k: nat): (a: Adapter)
    ensures a.dev == d.id && a.minor == k + 1
  {
    Adapter(d.id, k + 1, d.bar0, d.bar2, d.irq)
  }

  datatype Probed = Probed(reg: Registry, slot: nat, events: seq<Event>)

  /** device_init's bookkeeping: the shared objects on the first probe,
      slot and node index `count`, minor `count + 1`. The source indexes the
      table without a bound check, so a fifth probe is excluded here. */
  function Probe(r: Registry, d: PciDevice): (p: Probed)
    requires WellSized(r) && r.count < MAX_ADAPTERS
    ensures WellSized(p.reg) && p.reg.count == r.count + 1
    ensures p.slot == r.count && p.reg.slots[p.slot] == AdapterFor(d, p.slot)
    ensures forall i :: 0 <= i < MAX_ADAPTERS && i != p.slot ==> p.reg.slots[i] == r.slots[i]
    ensures p.events == if r.count == 0 then [CreateShared, CreateNode(1, 0)] else [CreateNode(r.count + 1, r.count)]
  {
    var k := r.count;
    var shared := if k == 0 then [CreateShared] else [];
    Probed(Registry(r.slots[k := AdapterFor(d, k)], k + 1), k, shared + [CreateNode(k + 1, k)])
  }

  /** The first slot in `i .. count-1` holding `dev`. */
  function FindSlot(r: Registry, dev: nat, i: nat): (k: Option<nat>)
    requires WellSized(r)
    ensures k.Some? ==> i <= k.value < r.count && r.slots[k.value].dev == dev
    ensures k.Some? ==> forall j :: i <= j < k.value ==> r.slots[j].dev != dev
    ensures k.None? ==> forall j :: i <= j < r.count ==> r.slots[j].dev != dev
    decreases r.count - i
  {
    if i >= r.count then None
    else if r.slots[i].dev == dev then Some(i)
    else FindSlot(r, dev, i + 1)
  }

  /** device_exit can find the device: otherwise it dereferences NULL. */
  predicate Present(r: Registry, dev: nat)
    requires WellSized(r)
  {
    exists k :: 0 <= k < r.count && r.slots[k].dev == dev
  }

  datatype Removed = Removed(reg: Registry, slot: nat, adapter: Adapter, events: seq<Event>)

  /** device_exit's bookkeeping: zero the slot found, decrement the count,
      destroy the node and, when the count reaches zero, the shared objects. */
  function Remove(r: Registry, dev: nat): (p: Removed)
    requires WellSized(r) && Present(r, dev)
    ensures WellSized(p.reg) && p.reg.count + 1 == r.count
    ensures p.slot < r.count && p.adapter == r.slots[p.slot] && p.adapter.dev == dev
    ensures forall j :: 0 <= j < p.slot ==> r.slots[j].dev != dev
    ensures p.reg.slots == r.slots[p.slot := ZERO]
    ensures p.events == if r.count == 1 then [DestroyNode(p.adapter.minor), DestroyShared] else [DestroyNode(p.adapter.minor)]
  {
    var k := FindSlot(r, dev, 0).value;
    var a := r.slots[k];
    var last := if r.count - 1 == 0 then [DestroyShared] else [];
    Removed(Registry(r.slots[k := ZERO], r.count - 1), k, a, [DestroyNode(a.minor)] + last)
  }

  /** Probing a new device into a table whose next slot is free, then
      removing it, gives back the table; the events create and destroy its
      node, and the shared objects only when it was the only adapter. */
  lemma ProbeThenRemove(r: Registry, d: PciDevice)
    requires WellSized(r) && r.count < MAX_ADAPTERS && r.slots[r.count] == ZERO
    requires Handle(d) && !Present(r, d.id)
    ensures var p := Probe(r, d);
      && Present(p.reg, d.id)
      && Remove(p.reg, d.id).reg == r
      && Remove(p.reg, d.id).slot == p.slot
      && p.events + Remove(p.reg, d.id).events
         == if r.count == 0 then [CreateShared, CreateNode(1, 0), DestroyNode(1), DestroyShared]
            else [CreateNode(r.count + 1, r.count), DestroyNode(r.count + 1)]
  {
    var p := Probe(r, d);
    assert p.reg.slots[r.count].dev == d.id;
    var q := Remove(p.reg, d.id);
    assert q.slot == r.count;
    assert q.reg.slots == r.slots;
  }

  /** Removing an adapter other than the last one strands the last one:
      it keeps its slot beyond the new count, so device_exit can no longer
      find it, and the next probe overwrites its slot and reuses its minor. */
  lemma RemoveStrandsLaterAdapter(a: PciDevice, b: PciDevice, c: PciDevice)
    requires Handle(a) && Handle(b) && Handle(c) && a.id != b.id
    ensures var r2 := Probe(Probe(EMPTY, a).reg, b).reg;
      var r3 := Remove(r2, a.id).reg;
      && r3.count == 1 && r3.slots[1] == AdapterFor(b, 1)
      && !Present(r3, b.id)
      && Probe(r3, c).slot == 1
      && Probe(r3, c).reg.slots[1] == AdapterFor(c, 1)
      && Probe(r3, c).events == [CreateNode(2, 1)]
  {
    var r1 := Probe(EMPTY, a).reg;
    var r2 := Probe(r1, b).reg;
    assert r2.slots[0].dev == a.id;
    var q := Remove(r2, a.id);
    assert q.slot == 0;
    var r3 := q.reg;
    assert r3.slots[0] == ZERO;
  }
}

=== FILE: registry_fixed.dfy ===
/**
  The adapter table with the bookkeeping device_init and device_exit
  evidently intend: a probe takes the first free slot (slot k gets minor
  k + 1 and node index k), and a removal searches every slot. The count
  is always the number of occupied slots, so removing any adapter leaves
  every other one reachable.
 */
module AdapterRegistryFixed {

  import opened Options
  import opened AdapterRegistry

  predicate Free(a: Adapter) { a.dev == 0 }

  /** The number of occupied slots. */
  function CountOccupied(slots: seq<Adapter>): (n: nat)
    ensures n <= |slots|
  {
    if |slots| == 0 then 0
    else (if Free(slots[0]) then 0 else 1) + CountOccupied(slots[1..])
  }

  /** Replacing one slot changes the count by the occupancy difference. */
  lemma {:induction false} CountUpdate(slots: seq<Adapter>, k: nat, a: Adapter)
    requires k < |slots|
    ensures CountOccupied(slots[k := a]) + (if Free(slots[k]) then 0 else 1)
         == CountOccupied(slots) + (if Free(a) then 0 else 1)
    decreases |slots|
  {
    if k > 0 {
      assert slots[k := a][1..] == slots[1..][k - 1 := a];
      CountUpdate(slots[1..], k - 1, a);
    }
  }

  /** With no free slot, every slot counts. */
  lemma {:induction false} CountFull(slots: seq<Adapter>)
    requires forall i :: 0 <= i < |slots| ==> !Free(slots[i])
    ensures CountOccupied(slots) == |slots|
    decreases |slots|
  {
    if |slots| > 0 {
      CountFull(slots[1..]);
    }
  }

  /** With every slot free, none counts. */
  lemma {:induction false} CountNone(slots: seq<Adapter>)
    requires forall i :: 0 <= i < |slots| ==> Free(slots[i])
    ensures CountOccupied(slots) == 0
    decreases |slots|
  {
    if |slots| > 0 {
      CountNone(slots[1..]);
    }
  }

  /** The table invariant: the count is the number of occupied slots, free
      slots are all-zero, slot k's adapter has minor k + 1, and no device
      occupies two slots. */
  predicate Valid(r: Registry) {
    && WellSized(r)
    && r.count == CountOccupied(r.slots)
    && (forall i :: 0 <= i < MAX_ADAPTERS && Free(r.slots[i]) ==> r.slots[i] == ZERO)
    && (forall i :: 0 <= i < MAX_ADAPTERS && !Free(r.slots[i]) ==> r.slots[i].minor == i + 1)
    && (forall i, j :: 0 <= i < j < MAX_ADAPTERS && !Free(r.slots[i]) ==> r.slots[i].dev != r.slots[j].dev)
  }

  lemma EmptyValid()
    ensures Valid(EMPTY)
  {
    CountNone(EMPTY.slots);
  }

  /** `dev` is a device some slot holds. */
  predicate Attached(r: Registry, dev: nat)
    requires WellSized(r)
  {
    dev != 0 && exists k :: 0 <= k < MAX_ADAPTERS && r.slots[k].dev == dev
  }

  /** The first free slot at or after `i`. */
  function FirstFree(r: Registry, i: nat): (k: Option<nat>)
    requires WellSized(r)
    ensures k.Some? ==> i <= k.value < MAX_ADAPTERS && Free(r.slots[k.value])
    ensures k.Some? ==> forall j :: i <= j < k.value ==> !Free(r.slots[j])
    ensures k.None? ==> forall j :: i <= j < MAX_ADAPTERS ==> !Free(r.slots[j])
    decreases MAX_ADAPTERS - i
  {
    if i >= MAX_ADAPTERS then None
    else if Free(r.slots[i]) then Some(i)
    else FirstFree(r, i + 1)
  }

  /** The slot holding `dev`, searching all of them. */
  function Locate(r: Registry, dev: nat, i: nat): (k: Option<nat>)
    requires WellSized(r)
    ensures k.Some? ==> i <= k.value < MAX_ADAPTERS && r.slots[k.value].dev == dev
    ensures k.None? ==> forall j :: i <= j < MAX_ADAPTERS ==> r.slots[j].dev != dev
    decreases MAX_ADAPTERS - i
  {
    if i >= MAX_ADAPTERS then None
    else if r.slots[i].dev == dev then Some(i)
    else Locate(r, dev, i + 1)
  }

  /** A table with room has a free slot. */
  lemma RoomMeansFree(r: Registry)
    requires Valid(r) && r.count < MAX_ADAPTERS
    ensures FirstFree(r, 0).Some?
  {
    if FirstFree(r, 0).None? {
      CountFull(r.slots);
    }
  }

  /** Probe a device that is not yet attached into a table with room. */
  function Probe(r: Registry, d: PciDevice): (p: Probed)
    requires Valid(r) && r.count < MAX_ADAPTERS && Handle(d) && !Attached(r, d.id)
    ensures Valid(p.reg) && p.reg.count == r.count + 1
    ensures p.slot < MAX_ADAPTERS && Free(r.slots[p.slot])
    ensures forall j :: 0 <= j < p.slot ==> !Free(r.slots[j])
    ensures p.reg.slots == r.slots[p.slot := AdapterFor(d, p.slot)]
    ensures Attached(p.reg, d.id)
    ensures p.events == if r.count == 0 then [CreateShared, CreateNode(p.slot + 1, p.slot)] else [CreateNode(p.slot + 1, p.slot)]
  {
    RoomMeansFree(r);
    var k := FirstFree(r, 0).value;
    var slots := r.slots[k := AdapterFor(d, k)];
    CountUpdate(r.slots, k, AdapterFor(d, k));
    assert slots[k].dev == d.id;
    var shared := if r.count == 0 then [CreateShared] else [];
    Probed(Registry(slots, r.count + 1), k, shared + [CreateNode(k + 1, k)])
  }

  /** Remove an attached device, wherever it sits. */
  function Remove(r: Registry, dev: nat): (p: Removed)
    requires Valid(r) && Attached(r, dev)
    ensures Valid(p.reg) && p.reg.count + 1 == r.count
    ensures p.slot < MAX_ADAPTERS && p.adapter == r.slots[p.slot] && p.adapter.dev == dev
    ensures p.reg.slots == r.slots[p.slot := ZERO]
    ensures !Attached(p.reg, dev)
    ensures p.events == if r.count == 1 then [DestroyNode(p.adapter.minor), DestroyShared] else [DestroyNode(p.adapter.minor)]
  {
    var k := Locate(r, dev, 0).value;
    var a := r.slots[k];
    CountUpdate(r.slots, k, ZERO);
    var last := if r.count == 1 then [DestroyShared] else [];
    Removed(Registry(r.slots[k := ZERO], r.count - 1), k, a, [DestroyNode(a.minor)] + last)
  }

  /** Probing a device and removing it again restores the table, and the
      events create and destroy the same node. */
  lemma ProbeThenRemove(r: Registry, d: PciDevice)
    requires Valid(r) && r.count < MAX_ADAPTERS && Handle(d) && !Attached(r, d.id)
    ensures var p := Probe(r, d);
      var q := Remove(p.reg, d.id);
      && q.reg == r && q.slot == p.slot && q.adapter == AdapterFor(d, p.slot)
      && p.events + q.events
         == if r.count == 0 then [CreateShared, CreateNode(p.slot + 1, p.slot), DestroyNode(p.slot + 1), DestroyShared]
            else [CreateNode(p.slot + 1, p.slot), DestroyNode(p.slot + 1)]
  {
    var p := Probe(r, d);
    var q := Remove(p.reg, d.id);
    assert q.slot == p.slot;
    assert q.reg.slots == r.slots;
  }

  /** Removing one device leaves every other attached device in its slot. */
  lemma RemoveKeepsOthers(r: Registry, dev: nat, k: nat)
    requires Valid(r) && Attached(r, dev)
    requires k < MAX_ADAPTERS && !Free(r.slots[k]) && r.slots[k].dev != dev
    ensures Remove(r, dev).reg.slots[k] == r.slots[k]
    ensures Attached(Remove(r, dev).reg, r.slots[k].dev)
  {
    var q := Remove(r, dev);
    assert q.slot != k;
    assert q.reg.slots[k] == r.slots[k];
  }

  /** The sequence that strands an adapter in the as-written table: here the
      second adapter stays removable and the next probe takes the vacated
      slot 0, with a minor different from the survivor's. */
  lemma NoStranding(a: PciDevice, b: PciDevice, c: PciDevice)
    requires Handle(a) && Handle(b) && Handle(c) && a.id != b.id && c.id != b.id
    ensures var r1 := (EmptyValid(); Probe(EMPTY, a).reg);
      var r2 := Probe(r1, b).reg;
      var r3 := Remove(r2, a.id).reg;
      && r3.count == 1 && r3.slots[1] == AdapterFor(b, 1) && Attached(r3, b.id)
      && !Attached(r3, c.id)
      && Probe(r3, c).slot == 0 && Probe(r3, c).events == [CreateNode(1, 0)]
      && Probe(r3, c).reg.slots[0].minor != Probe(r3, c).reg.slots[1].minor
  {
    EmptyValid();
    var r1 := Probe(EMPTY, a).reg;
    assert r1.slots[1] == ZERO;
    var r2 := Probe(r1, b).reg;
    var q := Remove(r2, a.id);
    assert r2.slots[0].dev == a.id;
    assert q.slot == 0;
    var r3 := q.reg;
    assert r3.slots[1].dev == b.id;
  }

  /** Occupied slots are exactly the first `count`, as the as-written table
      keeps them while adapters are removed in reverse order of probing. */
  predicate Compact(r: Registry)
    requires WellSized(r)
  {
    forall i :: 0 <= i < MAX_ADAPTERS ==> (Free(r.slots[i]) <==> i >= r.count)
  }

  /** On a compact table the corrected probe is the as-written one. */
  lemma ProbeAgrees(r: Registry, d: PciDevice)
    requires Valid(r) && Compact(r) && r.count < MAX_ADAPTERS && Handle(d) && !Attached(r, d.id)
    ensures Probe(r, d) == AdapterRegistry.Probe(r, d)
    ensures Compact(Probe(r, d).reg)
  {
    var p := Probe(r, d);
    assert p.slot == r.count;
  }

  /** Removing the most recently probed adapter of a compact table is the
      as-written removal. */
  lemma RemoveLastAgrees(r: Registry, dev: nat)
    requires Valid(r) && Compact(r) && r.count > 0 && dev != 0 && r.slots[r.count - 1].dev == dev
    ensures Attached(r, dev) && Present(r, dev)
    ensures Remove(r, dev) == AdapterRegistry.Remove(r, dev)
    ensures Compact(Remove(r, dev).reg)
  {
    assert Present(r, dev) by {
      assert r.slots[r.count - 1].dev == dev;
    }
    var p := Remove(r, dev);
    var q := AdapterRegistry.Remove(r, dev);
    assert p.slot == r.count - 1;
    assert q.slot == r.count - 1;
  }

  lemma FirstTwoProbes(a: PciDevice, b: PciDevice)
    requires Handle(a) && Handle(b) && a.id != b.id
    ensures var p1 := (EmptyValid(); Probe(EMPTY, a));
      var p2 := Probe(p1.reg, b);
      && p1.events == [CreateShared, CreateNode(1, 0)]
      && p2.events == [CreateNode(2, 1)]
      && p2.reg.count == 2
  {
    EmptyValid();
    var p1 := Probe(EMPTY, a);
    assert p1.slot == 0;
    assert p1.reg.slots[1] == ZERO;
    var p2 := Probe(p1.reg, b);
    assert p2.slot == 1;
  }

  // ---------------------------------------------------------------------
  // Lifetime of the shared objects over any sequence of probes and removals.

  /** What the PCI core asks of the driver. */
  datatype Op = Attach(d: PciDevice) | Detach(dev: nat)

  /** Applies the operations in order; None as soon as one asks for
      something the table cannot do (no room, a device attached twice, a
      device that is not attached). */
  function Run(r: Registry, ops: seq<Op>): (res: Option<(Registry, seq<Event>)>)
    requires Valid(r)
    ensures res.Some? ==> Valid(res.value.0)
    decreases |ops|
  {
    if |ops| == 0 then Some((r, []))
    else
      match ops[0]
      case Attach(d) =>
        if r.count < MAX_ADAPTERS && Handle(d) && !Attached(r, d.id) then
          var p := Probe(r, d);
          var rest := Run(p.reg, ops[1..]);
          if rest.None? then None else Some((rest.value.0, p.events + rest.value.1))
        else None
      case Detach(dev) =>
        if Attached(r, dev) then
          var q := Remove(r, dev);
          var rest := Run(q.reg, ops[1..]);
          if rest.None? then None else Some((rest.value.0, q.events + rest.value.1))
        else None
  }

  /** Replays events while tracking whether the shared objects exist; None
      at the first event out of place: creating them while they exist,
      destroying them while they do not, or creating or destroying a node
      without them. */
  function Replay(live: bool, evs: seq<Event>): Option<bool>
    decreases |evs|
  {
    if |evs| == 0 then Some(live)
    else
      var next :=
        match evs[0]
        case CreateShared => if live then None else Some(true)
        case DestroyShared => if live then Some(false) else None
        case _ => if live then Some(true) else None;
      if next.None? then None else Replay(next.value, evs[1..])
  }

  lemma {:induction false} ReplayAppend(live: bool, a: seq<Event>, b: seq<Event>)
    ensures Replay(live, a + b)
         == if Replay(live, a).None? then None else Replay(Replay(live, a).value, b)
    decreases |a|
  {
    if |a| > 0 {
      assert (a + b)[0] == a[0];
      assert (a + b)[1..] == a[1..] + b;
      var next :=
        match a[0]
        case CreateShared => if live then None else Some(true)
        case DestroyShared => if live then Some(false) else None
        case _ => if live then Some(true) else None;
      if next.Some? {
        ReplayAppend(next.value, a[1..], b);
      }
    } else {
      assert a + b == b;
    }
  }

  /** Over any run the shared objects are created exactly when the first
      adapter arrives and destroyed exactly when the last one leaves: the
      events replay without a fault, and they exist at the end exactly
      when some adapter does. */
  lemma {:induction false} SharedLifetime(r: Registry, ops: seq<Op>)
    requires Valid(r) && Run(r, ops).Some?
    ensures Replay(r.count > 0, Run(r, ops).value.1) == Some(Run(r, ops).value.0.count > 0)
    decreases |ops|
  {
    if |ops| > 0 {
      match ops[0]
      case Attach(d) =>
        var p := Probe(r, d);
        SharedLifetime(p.reg, ops[1..]);
        ReplayAppend(r.count > 0, p.events, Run(p.reg, ops[1..]).value.1);
      case Detach(dev) =>
        var q := Remove(r, dev);
        SharedLifetime(q.reg, ops[1..]);
        ReplayAppend(r.count > 0, q.events, Run(q.reg, ops[1..]).value.1);
    }
  }
}
